=== FILE: README.md ===
# Talkative chat backend: relationship rules, handshake and socket consumer

This project models the core of a Django chat backend in Dafny:

- The REST views that manage friendships, group memberships and direct chats, over an in-memory store that keeps the schema's constraints.
- The `IsGroupAdmin` object permission.
- The WebSocket handshake middleware. It reads a `token` from the query string and resolves it to a user.
- The `ChatConsumer`. It subscribes a connection to its room's broadcast group, and it routes each inbound frame: the frame is dropped, rebroadcast unchanged, or saved and then announced.

Every operation is a pure function from a store (or a channel layer) to a result or a typed error. The modules follow the program:

- `Models`: rows, constraints and defaults.
- `Permissions`: `IsGroupAdmin`.
- `FriendshipViews`, `GroupViews`, `DirectChatViews`: the views.
- `Middleware`: the handshake.
- `ChannelLayer`: group add, discard and send.
- `Consumer`: the socket consumer.
- Supporting modules for Python's built-ins and parsed JSON: `Text` (`str.split`, `str.strip`), `PyInt` (`int()` on a string, `str()` of an int), `JsonValues` (parsed values, truthiness, `dict.get`).
- Generic table queries: `Tables`.

Tables are sequences of rows in insertion order. A single allocator `nextId` hands out row ids, and an abstract clock `clock` supplies every "now". The store invariant `Models.Valid` holds:

- `user_one < user_two` and one row per pair, for friendships and for direct chats.
- One membership per (group, user).
- One reaction per (message, user, reaction type).
- Ids unique and increasing.
- Messages ordered by `created_at`.

Every transition that succeeds is proved to keep this invariant.

The code is modelled as written. In particular:

- `GroupListView.perform_create` creates a pending friendship that records the caller as requester. It creates no group (`FriendshipViews.GroupListCreate`). Before it runs, `GroupSerializer` still validates the body as a group, so a plain friend request body without `group_name` is refused with 400 (`FriendshipViews.BareRequestRefused`).
- The consumer subscribes and saves without checking membership (`Consumer.SaveIgnoresMembership`).
- The consumer rebroadcasts the client's payload unchanged.
- The broadcast group is named from the raw room name. So a group room and a direct chat with the same number share subscribers (`Consumer.TypeDoesNotSelectGroup`), while "007" and "7" save to the same room but broadcast to different groups (`Consumer.RoomNameAliasing`).
- The channel layer refuses a group name that is 100 characters or longer, that is empty, or that holds a character other than an ASCII letter, digit, `-`, `_` or `.`. One final newline is let through, because the name pattern's `$` matches before it. A refused room name fails the handshake (`Consumer.BadRoomNameFailsHandshake`).
- The REST views that create validate the body before saving, and a refused body is a 400. `FriendshipListCreate` and `GroupListCreate` validate it before anything else. The message post validates it after the 404 and 403 checks (`DirectChatViews.PostChecks`).

## Model

| member | source | states |
|---|---|---|
| Models.SortedPair | chat/views.py:91 | the stored pair is ascending and is a permutation of the two users |
| Models.Defaults | chat/models.py:91-96 | new rows take the schema defaults. A friendship starts pending. A membership starts unmuted. A direct message is text, sent, unedited and deleted for nobody. A group message is text and not deleted |
| Models.FindMemberUnique | chat/models.py:151-152 | under the (group, user) uniqueness constraint, looking up a row's pair finds that very row |
| Models.TouchChat | chat/views.py:350-352 | setting a chat's `last_message_at` keeps the chat constraints and leaves every chat lookup where it was |
| Models.HttpStatus | chat/views.py:330-345 | every error is answered with 400, 403 or 404. It is 404 exactly for the missing-object errors and 403 exactly for the permission errors |
| Permissions.IsGroupAdmin | chat/permissions.py:10-15 | allowed only through an admin row of that (group, user); with no row for the pair the answer is no |
| Permissions.RoleDecides | chat/permissions.py:12-13 | given unique membership rows, the pair's role decides: allowed exactly when it is admin |
| Permissions.AdminAllowed | chat/permissions.py:13 | an admin row allows its user on its group |
| Permissions.MemberDenied | chat/permissions.py:13 | a member row denies its user |
| Permissions.OtherRowIrrelevant | chat/permissions.py:12 | a row for another (group, user) pair never changes the decision |
| FriendshipViews.RequestFriendship | chat/views.py:79-96 | refusals come in order: self request, unknown target, existing pair in any status. It succeeds exactly when none applies, and then appends one pending row for the sorted pair and changes nothing else |
| FriendshipViews.StatusChoiceNames | chat/models.py:27-34 | a given `status` passes exactly when it is the stored value of one of `Friendship.Status`'s members |
| FriendshipViews.FriendshipListCreate | chat/views.py:65-96 | a body `status` outside the choices is refused with 400 before anything else. Otherwise the call succeeds exactly when the caller is not the target, the target exists and the pair is free. A success stores a pending friendship with no requester. The failures are exactly these four refusals |
| FriendshipViews.GroupListCreate | chat/views.py:151-183 | `GroupSerializer`'s body check comes first. The call succeeds exactly when the body is valid and no friend-request refusal applies. A success creates a pending friendship with the caller as requester and leaves groups and memberships unchanged |
| FriendshipViews.BareRequestRefused | chat/serializers.py:107-117 | a body holding only `user_id` is refused with 400, because `group_name` is required |
| FriendshipViews.NamedRequest | chat/models.py:111 | with a non-blank `group_name` of at most 100 characters, the call is exactly a friend request that records its sender |
| FriendshipViews.EitherSide | chat/views.py:90-94 | a request from either side succeeds or fails alike and stores the same pair |
| FriendshipViews.ReverseRefused | chat/views.py:93-94 | once a request is stored, the reverse request is refused as a duplicate |
| FriendshipViews.RequestKeepsValid | chat/models.py:37-41 | a new request keeps every schema constraint |
| FriendshipViews.FriendshipFor | chat/views.py:104-109 | the lookup answers 404 exactly when no row has the id; on success the caller is one of the row's two users; any other failure is a 403 |
| FriendshipViews.ParticipantsOnly | chat/views.py:107-108 | a stored friendship is accessible exactly to its two participants |
| FriendshipViews.Receiver | chat/views.py:134 | for a friendship between two users, the receiver is one of them. The receiver is never the recorded requester when the requester is a participant |
| FriendshipViews.AcceptFriendship | chat/views.py:111-143 | access errors come first, then a status outside the choices. On success the row was pending and is now accepted, and nothing else changes. Every other failure is a 404 or a 403 |
| FriendshipViews.ReceiverOnly | chat/views.py:133-143 | with a requester recorded and any valid `status` in the body (none, "pending" or "accepted"), a participant may accept a pending request exactly when they did not send it |
| FriendshipViews.NullRequesterEitherAccepts | chat/views.py:127-131 | with no requester recorded and any valid `status` in the body, either participant may accept |
| FriendshipViews.AcceptOnce | chat/views.py:123-125 | an accepted friendship cannot be accepted again |
| FriendshipViews.AcceptKeepsValid | chat/models.py:37-41 | accepting keeps every schema constraint |
| FriendshipViews.DeleteFriendship | chat/views.py:145-147 | after the access checks, exactly the looked-up row is deleted, in any status. The deletion succeeds exactly when the lookup does |
| FriendshipViews.DeleteKeepsValid | chat/models.py:37-41 | deleting keeps every schema constraint |
| FriendshipViews.DeleteFreesPair | chat/views.py:93-96 | after a deletion, either user may send a new request to the other |
| GroupViews.RoleChoice | chat/serializers.py:122 | `role` is `admin` or `member` and defaults to member; anything else is a 400 |
| GroupViews.RoleRoundTrip | chat/serializers.py:122 | every role's wire name reads back as that role |
| GroupViews.AdminAccess | chat/views.py:200-201 | a missing group gives 404, then a caller who is not an admin gives 403; success names the group's row |
| GroupViews.AddMember | chat/views.py:196-217 | refusals come in order: invalid role, access, unknown user, already a member. Success appends one unmuted row with the chosen role and the caller as `added_by` |
| GroupViews.AddOutcome | chat/views.py:203-216 | once the body and access are valid, a known user who is not yet a member is always added |
| GroupViews.AddKeepsValid | chat/models.py:151-152 | adding keeps every schema constraint, including one row per (group, user) |
| GroupViews.AddTwiceRefused | chat/views.py:208-209 | adding the same user again is refused as already a member |
| GroupViews.RemoveMember | chat/views.py:219-239 | refusals come in order: invalid role, access, not a member, last admin. The last-admin refusal is given exactly when the user's row is an admin and the group has one admin. When no refusal applies, the removal succeeds and deletes exactly the user's row |
| GroupViews.RemoveKeepsAnAdmin | chat/views.py:234-236 | after a removal the group still has an admin |
| GroupViews.RemoveExactlyOne | chat/views.py:226-238 | after a removal the user is no longer a member, and every other (group, user) membership is unchanged |
| GroupViews.RemoveKeepsValid | chat/models.py:151-152 | removing keeps every schema constraint |
| DirectChatViews.OpenDirectChat | chat/views.py:275-305 | an unknown user gives 404, and no accepted friendship on the sorted pair gives 403. Otherwise an existing chat for the pair is returned unchanged, or a new one is created with both timestamps set to now |
| DirectChatViews.SelfChatRefused | chat/views.py:285-296 | in a valid store, a chat with oneself is always refused, with 403 when the user exists |
| DirectChatViews.OpenIdempotent | chat/views.py:298-302 | opening again, from either side, returns the same chat and changes nothing |
| DirectChatViews.OpenKeepsValid | chat/models.py:67-71 | opening keeps every schema constraint, including one chat per pair |
| DirectChatViews.ListMessages | chat/views.py:313-324 | nothing is listed for a missing chat or an outsider; otherwise exactly the chat's messages are listed |
| DirectChatViews.ListInOrder | chat/views.py:324 | the listing is in `created_at` order |
| DirectChatViews.TypeChoice | chat/models.py:77-91 | `message_type` is one of the four choices and defaults to text |
| DirectChatViews.TypeRoundTrip | chat/models.py:77-81 | every type's wire name reads back as that type |
| DirectChatViews.BodyTextRule | chat/serializers.py:64-73 | with an acceptable type and no media URL, the body is accepted exactly when the text is present, free of NUL and holds a character that is not whitespace |
| DirectChatViews.PostChecks | chat/views.py:330-345 | a missing chat gives 404, then an outsider 403, then a refused body 400. When every check passes, the result is the chat's row. A body is refused when its text is missing, blank or holds NUL, when its type is not a choice, or when its media URL is over 500 characters or holds NUL |
| DirectChatViews.PostMessage | chat/views.py:326-356 | a post fails exactly when the checks fail. On success it stores one message with the stripped text and stripped media URL, the caller as sender and the chosen type. It sets the chat's `last_message_at` to a later now |
| DirectChatViews.PostErrorOrder | chat/views.py:332-345 | the failure's HTTP status is 404, 403 or 400 exactly according to which check failed |
| DirectChatViews.PostedDefaults | chat/models.py:91-96 | a posted message is sent, unedited and deleted for nobody. Its text is not blank, already stripped and free of NUL |
| DirectChatViews.PostThenList | chat/views.py:313-352 | after a post, listing the chat as either participant ends with the new message |
| DirectChatViews.PostKeepsValid | chat/views.py:348-352 | posting keeps every schema constraint, message order included |
| DirectChatViews.PostedKeepsValid | chat/views.py:348-352 | appending a message with the next id and the current time, and touching its chat, keeps every schema constraint |
| DirectChatViews.PostedListsLast | chat/views.py:313-352 | after that append, a participant's listing of the chat ends with the message |
| Text.SplitCount | chat/middleware.py:28 | `split` gives one more piece than there are separators |
| Text.JoinSplit | chat/middleware.py:28 | joining the pieces of a split gives back the text |
| Text.SplitJoin | chat/middleware.py:28 | splitting a join of separator-free pieces gives back the pieces |
| Text.StripShape | chat/serializers.py:70 | stripping removes exactly the leading and trailing characters of the class and keeps the middle |
| Text.StripIdempotent | chat/serializers.py:70 | stripping twice is stripping once |
| Text.StripKeepsChars | chat/serializers.py:70 | stripping adds no character: everything in the result is in the input |
| PyInt.ParseIntRoundTrip | chat/consumers.py:84 | `int(str(n)) == n` for every integer |
| PyInt.ParseInt | chat/consumers.py:84 | a number `int()` reads, once its whitespace is removed, ends in a digit and starts with a digit or a sign |
| PyInt.ParseIntRejects | chat/consumers.py:84 | a character below U+0660, other than a digit, underscore or sign, left inside the text once `int()`'s whitespace is removed makes `int()` fail |
| PyInt.LeadingZeros | chat/consumers.py:84 | `int()` ignores leading zeros |
| Middleware.Segments | chat/middleware.py:28 | the kept segments are exactly the `&`-pieces that hold `=` |
| Middleware.SegmentsAppend | chat/middleware.py:28 | a piece appended to the query string comes after every earlier segment, and is kept exactly when it holds `=` |
| Middleware.AddPair | chat/middleware.py:28 | a segment becomes a pair exactly when it holds one `=`. The key is the text before it and the value the text after, replacing any earlier value. Otherwise the error names the segment |
| Middleware.BuildDict | chat/middleware.py:28 | a success keeps every earlier key. A failure names one of the segments, one that does not hold exactly one `=` |
| Middleware.ParseQuery | chat/middleware.py:28 | a failure names an `&`-piece of the query string that holds two or more `=` |
| Middleware.AddPairFails | chat/middleware.py:28 | a segment with `=` fails to become a pair exactly when it holds two or more `=` |
| Middleware.BuildDictFails | chat/middleware.py:28 | `dict(...)` fails exactly when some segment holds two or more `=` |
| Middleware.DoubleEqualsFails | chat/middleware.py:28 | a query-string piece with two `=` makes the handshake fail |
| Middleware.SingleEqualsParses | chat/middleware.py:28 | without such a piece, parsing succeeds |
| Middleware.ParseFailsOnDoubleEquals | chat/middleware.py:28 | parsing fails exactly when some `&`-piece holds two or more `=` |
| Middleware.BuildDictAppend | chat/middleware.py:28 | building over more segments continues from the earlier result |
| Middleware.PairSplits | chat/middleware.py:28 | `k=v` splits into exactly `k` and `v` |
| Middleware.PiecesAppend | chat/middleware.py:28 | appending `&seg` appends one piece |
| Middleware.SegmentWithoutEqualsIgnored | chat/middleware.py:28 | a segment without `=` does not change the parameters |
| Middleware.LastWins | chat/middleware.py:28-29 | a later `key=value` overrides an earlier one, and the value is kept verbatim |
| Middleware.SingleParameter | chat/middleware.py:28-29 | a lone `key=value` gives exactly that parameter |
| Middleware.GetUser | chat/middleware.py:12-19 | authenticated exactly when the token decodes to the id of a stored user, as that user; anonymous otherwise |
| Middleware.Call | chat/middleware.py:25-36 | the handshake fails exactly when the query string does not parse. Otherwise `user` is always set, from a non-empty token or to anonymous |
| Middleware.NoTokenAnonymous | chat/middleware.py:31-34 | with a missing or empty token, the user is anonymous whatever the decoder says |
| Middleware.BadTokenAnonymous | chat/middleware.py:13-19 | a token that does not decode, or names no stored user, gives anonymous rather than an error |
| Middleware.TokenAuthenticates | chat/middleware.py:28-32 | `token=t` alone authenticates as the user `t` decodes to |
| ChannelLayer.GroupAdd | chat/consumers.py:18-21 | fails exactly when the group name is invalid: 100 characters or more, empty, or holding a character other than an ASCII letter, digit, `-`, `_` or `.`, where one final newline is let through. Otherwise the channel joins that group only, and inboxes and the outbox are untouched |
| ChannelLayer.GroupDiscard | chat/consumers.py:27-30 | fails exactly when the group name is invalid: too long, empty, or holding a refused character, where one final newline is let through. Otherwise the channel leaves that group only, and discarding a channel that never joined changes nothing |
| ChannelLayer.GroupSend | chat/consumers.py:67-73 | fails exactly when the group name is invalid: too long, empty, or holding a refused character, where one final newline is let through. Otherwise every current subscriber gets the event at the end of its inbox, no other channel gets it, and the send is logged |
| ChannelLayer.AddThenDiscard | chat/consumers.py:18-30 | for a valid group name, joining then leaving restores every group |
| ChannelLayer.SendsInOrder | chat/consumers.py:67-73 | for a valid group name, two sends reach a subscriber in the order they were made |
| ChannelLayer.NoBacklog | chat/consumers.py:67-73 | for a valid group name, a channel that joins after a send does not receive it |
| ChannelLayer.GroupNameExamples | chat/consumers.py:18-21 | a plain name under 100 characters is valid. A name of 100 characters or more, or one with a refused character at the end, is invalid |
| Consumer.RoomGroupName | chat/consumers.py:11 | the group name is `chat_` followed by the raw room name |
| Consumer.RoomGroupNameInjective | chat/consumers.py:10-11 | two room names share a group exactly when they are equal |
| Consumer.Connect | chat/consumers.py:9-24 | an anonymous user is refused and the layer is untouched. For an authenticated user, the handshake fails exactly when the room's group name is invalid. Otherwise the channel joins only the room's group and the connection is accepted |
| Consumer.AcceptedIsOpen | chat/consumers.py:18-23 | every accepted connection is open, so frames can reach it |
| Consumer.BadRoomNameFailsHandshake | chat/consumers.py:11-21 | a room name with a refused character (a newline counts unless it is the last character), or of 95 characters or more, fails an authenticated handshake |
| Consumer.Disconnect | chat/consumers.py:26-31 | fails exactly when the room's group name is invalid. Otherwise it removes exactly this channel from its room's group, and removes nothing when the channel was not there |
| Consumer.AnonymousNeverSubscribed | chat/consumers.py:14-16 | an anonymous connection is not accepted. Neither its connect nor its disconnect changes the layer |
| Consumer.ConnectThenDisconnect | chat/consumers.py:18-30 | for a valid room name, connecting then disconnecting succeeds and restores every group |
| Consumer.RouteFrame | chat/consumers.py:35-61 | `type` defaults to group and `msg_type` to new_message. A frame is dropped exactly when it is a new_message frame without a truthy `message`. It is rebroadcast exactly when it is a broadcast frame with `message_data`, which it carries unchanged. Every other frame goes to saving, with its `message` and `type` |
| Consumer.DefaultsToGroupMessage | chat/consumers.py:35-41 | a frame with only a truthy `message` goes to saving in a group room |
| JsonValues.FalsyValues | chat/consumers.py:43 | `not message_text` holds exactly for null, false, zero and the empty string, list and object |
| Consumer.TypedFramePersists | chat/consumers.py:35-61 | a frame with a truthy message and type `group` or `dm` goes to saving with that type |
| Consumer.SaveToGroup | chat/consumers.py:86-101 | nothing is saved for a missing group. A null text fails at the database. Otherwise one group message is appended and the event `{id, sender, content, timestamp}` is returned |
| Consumer.SaveToChat | chat/consumers.py:103-118 | the same for a direct chat, with the message model's defaults |
| Consumer.SaveMessage | chat/consumers.py:81-123 | a non-integer room name, or a type that is neither group nor dm, saves nothing; otherwise the matching branch runs |
| Consumer.MessageEvent | chat/consumers.py:93-101 | the event has exactly the keys `id`, `sender`, `content` and `timestamp`. It carries the message's id, its text and its formatted time, and `sender` is `{id, username}` of the connection's user |
| Consumer.SaveStoresOne | chat/consumers.py:86-118 | a save adds exactly one message, from the connection's user with the frame's text, to the table its type names |
| Consumer.GroupSaveKeepsValid | chat/consumers.py:86-101 | saving to a group keeps every schema constraint |
| Consumer.ChatSaveKeepsValid | chat/consumers.py:103-118 | saving to a direct chat keeps every schema constraint |
| Consumer.SaveKeepsValid | chat/consumers.py:86-118 | a save from the socket keeps every schema constraint, message order included |
| Consumer.SaveIgnoresMembership | chat/consumers.py:86-109 | whether a save happens does not depend on any group's members or any chat's participants |
| Consumer.Receive | chat/consumers.py:33-73 | a dropped frame changes nothing. A rebroadcast sends the payload unchanged, or crashes when it has no `id`. A frame that reaches saving but is not saved changes nothing and sends nothing, and a null text crashes. Every handled frame leaves subscriptions alone and makes at most one send, to the room's group |
| Consumer.ChatEvent | chat/consumers.py:51-57 | the group event, once delivered, writes exactly `{"message": payload}` to the socket |
| Consumer.SavedEventRebroadcasts | chat/consumers.py:47-58 | a broadcast frame carrying a saved message's event resends that event unchanged to the room's group |
| Consumer.SavedThenAnnounced | chat/consumers.py:61-73 | a saved message is announced once, to the room's group, with its event |
| Consumer.TypeDoesNotSelectGroup | chat/consumers.py:67-73 | two saved frames on one connection, group or dm, are announced to the same group |
| Consumer.RoomNameAliasing | chat/consumers.py:84 | room names differing only in leading zeros save to the same room id but broadcast to different groups |
| Consumer.Deliver | chat/consumers.py:75-79 | the frame written to the socket is `{"message": event}` and nothing else |
| Consumer.DeliverRecoversPayload | chat/consumers.py:75-79 | two events give the same socket frame exactly when they carry the same message |

## Left out

- JWT decoding is a parameter of the handshake model. `AccessToken` parsing, signature and expiry checks belong to a third-party library. A decoded `user_id` that is not an integer is folded into "does not decode".
- GetUser: for a `user_id` that is not a number, `User.objects.get` raises `ValueError`, which `get_user` does not catch, so the handshake errors. The model's decoder returns no id in that case, and the user is anonymous.
- BadTokenAnonymous: covers the non-numeric `user_id` too. The source errors in that case instead of answering anonymous (see GetUser).
- The query string is taken as already decoded text. Its UTF-8 decoding is not modelled.
- Channels transport, the async event loop and concurrency are not modelled. The channel layer is a sequential map from group to channels, plus inboxes and an outbox.
- ORM mechanics are abstracted:
  - One id allocator serves every table.
  - `auto_now` and `auto_now_add` read an abstract clock.
  - `isoformat()` is a parameter `iso` of the consumer.
- `json.loads` is not modelled. A frame arrives as an already-parsed JSON object.
- Floating-point JSON numbers are not modelled; numbers are integers.
- A socket message's text is stored as the JSON value the frame carried. For a non-string value the database column would hold its `str()`, which the model does not compute. The event echoes the value, as the in-memory instance does.
- `Text.IsSpace` is the whole set of characters that Python's `str.isspace()` accepts. `int()` skips the same set except the separators U+001C to U+001F (`PyInt.IntSpace`).
- ParseInt: only the ASCII digits are digits. `int()` also reads the decimal digits of other scripts (from U+0660 on), which the model refuses.
- ParseIntRejects: proved only for characters below U+0660, where no other script's digits lie.
- ParseInt: Python's `int()` raises `ValueError` for a decimal text of more than 4300 digits (its default digit limit); the model has no such limit. At chat/consumers.py:84 the limit is never reached, because an open connection's room name is under 95 characters.
- ParseIntRoundTrip: holds for every integer in the model. In Python, `str(n)` and `int()` raise once `n` has more than 4300 digits, so the round trip holds only below that.
- LeadingZeros: the model accepts any number of leading zeros. In Python, a text of more than 4300 digits raises, zeros included.
- GroupAdd: the layer's pattern `\d` also matches non-ASCII decimal digits; the model accepts only the ASCII digits in a group name.
- GroupDiscard: refuses non-ASCII decimal digits in a group name, which the layer accepts.
- GroupSend: refuses non-ASCII decimal digits in a group name, which the layer accepts.
- Connect: fails the handshake for a room name with non-ASCII decimal digits, which the layer accepts.
- Disconnect: fails for a room name with non-ASCII decimal digits, which the layer accepts.
- GroupNameExamples: a name ending in a non-ASCII decimal digit counts as invalid here, while the layer accepts it.
- BadRoomNameFailsHandshake: a non-ASCII decimal digit counts as a refused character here, while the layer accepts it.
- DRF field coercion is modelled only as far as the views depend on it:
  - `user_id` arrives as an integer.
  - A message's text arrives as a string, which is trimmed and must not be blank or hold NUL.
  - A field sent as JSON `null`, or as a non-string value, is not modelled; a field is either absent or a string.
- PostMessage: `media_url` is not checked as a URL; only its length and NUL are checked. Django's URL grammar is large, and no modelled view reads the URL.
- PostChecks: its 400 condition leaves out `media_url`'s URL validation, so a body the serializer refuses for a malformed URL is accepted here.
- GroupListCreate: `group_avatar_url` is not read, so neither its URL check nor its 500-character limit is modelled.
- FriendshipListCreate: the body's `status` is checked only against the two choices. The other body fields are read-only and are ignored.
- Group rows keep only their id and name, because no modelled view reads the rest.
- A membership's `joined_at` and `last_read_message` are not modelled, because no modelled view reads them.
- Reactions have no operations in the modelled views; only their uniqueness constraint is kept.
- Login, registration, user search, profile and list views are not modelled. They are token minting, password hashing, search filters and plain getters.
- `GroupDetailView` and the plain list querysets are not modelled for the same reason.
- Serializer output (the response bodies) is not modelled. Neither are URL routing, ASGI setup, the admin site and the superuser script. chat/routing.py is not part of this model.
- `print` logging is not modelled.

=== FILE: channel_layer.dfy ===
/** The Channels layer as the consumer uses it, taken one operation at a
    time: named groups of channels, `group_add`, `group_discard`, and
    `group_send`, which hands the event to every channel in the group at the
    moment of sending and records the send in an outbox. */
module ChannelLayer {
  import opened Wrappers
  import opened JsonValues

  type Channel = string

  /** An event sent to a group: the handler it names and its payload. */
  datatype Event = Event(handler: string, message: Json)

  datatype Layer = Layer(
    groups: map<string, set<Channel>>,
    inboxes: map<Channel, seq<Event>>,
    sent: seq<(string, Event)>)

  /** The channels in a group; a group nobody joined is empty. */
  function Subscribers(l: Layer, group: string): set<Channel>
  {
    if group in l.groups then l.groups[group] else {}
  }

  /** The events delivered to a channel, oldest first. */
  function Inbox(l: Layer, ch: Channel): seq<Event>
  {
    if ch in l.inboxes then l.inboxes[ch] else []
  }

  /** A character Channels allows in a group name: an ASCII letter or digit,
      `-`, `_` or `.`. */
  predicate GroupNameChar(c: char)
  {
    ('a' <= c <= 'z') || ('A' <= c <= 'Z') || ('0' <= c <= '9') || c == '-' || c == '_' || c == '.'
  }

  /** The group names the layer accepts: shorter than 100 characters, and
      one or more allowed characters, optionally followed by a single final
      newline (which the name pattern's `$` lets through). */
  predicate ValidGroupName(name: string)
  {
    && |name| < 100 && |NameBody(name)| > 0
    && forall i :: 0 <= i < |NameBody(name)| ==> GroupNameChar(NameBody(name)[i])
  }

  /** A name without its final newline, if it has one. */
  function NameBody(name: string): string
  {
    if |name| > 0 && name[|name| - 1] == '\n' then name[..|name| - 1] else name
  }

  /** The `TypeError` the layer raises for a group name it does not accept. */
  datatype LayerError = InvalidGroupName(name: string)

  /** `group_add`: the channel joins the group and nothing else changes; a
      group name the layer does not accept raises instead. */
  function GroupAdd(l: Layer, group: string, ch: Channel): (r: Result<Layer, LayerError>)
    ensures r.Success? <==> ValidGroupName(group)
    ensures r.Failure? ==> r.error == InvalidGroupName(group)
    ensures r.Success? ==> Subscribers(r.value, group) == Subscribers(l, group) + {ch}
    ensures r.Success? ==> forall g :: g != group ==> Subscribers(r.value, g) == Subscribers(l, g)
    ensures r.Success? ==> r.value.inboxes == l.inboxes && r.value.sent == l.sent
  {
    if !ValidGroupName(group) then Failure(InvalidGroupName(group))
    else Success(l.(groups := l.groups[group := Subscribers(l, group) + {ch}]))
  }

  /** `group_discard`: the channel leaves the group; discarding a channel
      that is not in the group changes nothing at all. The group name is
      checked as by `group_add`. */
  function GroupDiscard(l: Layer, group: string, ch: Channel): (r: Result<Layer, LayerError>)
    ensures r.Success? <==> ValidGroupName(group)
    ensures r.Failure? ==> r.error == InvalidGroupName(group)
    ensures r.Success? ==> Subscribers(r.value, group) == Subscribers(l, group) - {ch}
    ensures r.Success? ==> forall g :: g != group ==> Subscribers(r.value, g) == Subscribers(l, g)
    ensures r.Success? ==> r.value.inboxes == l.inboxes && r.value.sent == l.sent
    ensures r.Success? && ch !in Subscribers(l, group) ==> r.value == l
  {
    if !ValidGroupName(group) then Failure(InvalidGroupName(group))
    else if group in l.groups && ch in l.groups[group] then
      Success(l.(groups := l.groups[group := l.groups[group] - {ch}]))
    else Success(l)
  }

  /** `group_send`: every channel in the group when the send happens gets
      the event at the end of its inbox; the send is logged. The group name
      is checked as by `group_add`. */
  function GroupSend(l: Layer, group: string, ev: Event): (r: Result<Layer, LayerError>)
    ensures r.Success? <==> ValidGroupName(group)
    ensures r.Failure? ==> r.error == InvalidGroupName(group)
    ensures r.Success? ==> r.value.groups == l.groups
    ensures r.Success? ==> r.value.sent == l.sent + [(group, ev)]
    ensures r.Success? ==> forall ch :: ch in Subscribers(l, group) ==> Inbox(r.value, ch) == Inbox(l, ch) + [ev]
    ensures r.Success? ==> forall ch :: ch !in Subscribers(l, group) ==> Inbox(r.value, ch) == Inbox(l, ch)
  {
    if !ValidGroupName(group) then Failure(InvalidGroupName(group))
    else
      var subs := Subscribers(l, group);
      var inboxes := map ch | ch in l.inboxes.Keys + subs ::
        if ch in subs then Inbox(l, ch) + [ev] else l.inboxes[ch];
      Success(Layer(l.groups, inboxes, l.sent + [(group, ev)]))
  }

  /** Joining a group and then leaving it restores every group's members,
      for a channel that was not in the group before. */
  lemma AddThenDiscard(l: Layer, group: string, ch: Channel)
    requires ValidGroupName(group) && ch !in Subscribers(l, group)
    ensures GroupDiscard(GroupAdd(l, group, ch).value, group, ch).Success?
    ensures forall g :: Subscribers(GroupDiscard(GroupAdd(l, group, ch).value, group, ch).value, g)
                        == Subscribers(l, g)
  {
  }

  /** Delivery is first in, first out: two sends to a group reach each of its
      channels in the order they were made. */
  lemma SendsInOrder(l: Layer, group: string, e1: Event, e2: Event, ch: Channel)
    requires ValidGroupName(group) && ch in Subscribers(l, group)
    ensures GroupSend(GroupSend(l, group, e1).value, group, e2).Success?
    ensures Inbox(GroupSend(GroupSend(l, group, e1).value, group, e2).value, ch) == Inbox(l, ch) + [e1, e2]
  {
    assert ch in Subscribers(GroupSend(l, group, e1).value, group);
  }

  /** A channel that joins after a send does not receive it: there is no
      backlog. */
  lemma NoBacklog(l: Layer, group: string, ev: Event, ch: Channel)
    requires ValidGroupName(group) && ch !in Subscribers(l, group)
    ensures GroupAdd(GroupSend(l, group, ev).value, group, ch).Success?
    ensures Inbox(GroupAdd(GroupSend(l, group, ev).value, group, ch).value, ch) == Inbox(l, ch)
  {
  }

  /** The name check in examples: a plain name passes, while a space, a
      character outside ASCII, or a hundredth character makes it fail. */
  lemma GroupNameExamples(name: string, c: char)
    requires |name| > 0 && forall i :: 0 <= i < |name| ==> GroupNameChar(name[i])
    requires !GroupNameChar(c) && c != '\n'
    ensures |name| < 100 ==> ValidGroupName(name)
    ensures !ValidGroupName(name + [c])
    ensures |name| >= 100 ==> !ValidGroupName(name)
  {
    var n := name + [c];
    assert n[|n| - 1] == c && !GroupNameChar(n[|n| - 1]);
    assert NameBody(n) == n;
    assert !GroupNameChar(NameBody(n)[|n| - 1]);
  }
}

=== FILE: consumer.dfy ===
/** `ChatConsumer`: a WebSocket connection to a room. Connecting subscribes
    the connection's channel to the room's broadcast group, and each inbound
    frame is dropped, rebroadcast as given, or saved as a message whose event
    is then broadcast. Frames arrive already parsed as JSON objects; the
    rendering of a creation time as text is a parameter `iso`. */
module Consumer {
  import opened Wrappers
  import opened Text
  import opened PyInt
  import opened JsonValues
  import opened Models
  import opened Middleware
  import opened ChannelLayer

  /** A connection: the room name from the URL, its channel, the user the
      handshake resolved, and whether the socket was accepted. */
  datatype Connection = Connection(roomName: string, channel: Channel, user: Principal, accepted: bool)

  /** Frames are only delivered to an accepted connection: its user is
      authenticated and its room's group name passed `group_add`. */
  predicate Open(c: Connection)
  {
    c.accepted && c.user.Authenticated? && ValidGroupName(RoomGroupName(c.roomName))
  }

  /** The broadcast group of a room: the raw room name behind `chat_`. */
  function RoomGroupName(roomName: string): (g: string)
    ensures |g| == |roomName| + 5 && g[..5] == "chat_" && g[5..] == roomName
  {
    "chat_" + roomName
  }

  /** Different room names give different groups, and the same room name
      gives the same group whatever the room's type. */
  lemma RoomGroupNameInjective(a: string, b: string)
    ensures RoomGroupName(a) == RoomGroupName(b) <==> a == b
  {
    if RoomGroupName(a) == RoomGroupName(b) {
      assert a == RoomGroupName(a)[5..];
    }
  }

  /** `connect`: an unauthenticated user is closed without touching the
      layer; otherwise the channel joins the room's group and is accepted,
      unless the layer refuses the group name, which fails the handshake. */
  function Connect(l: Layer, roomName: string, ch: Channel, user: Principal)
    : (r: Result<(Connection, Layer), LayerError>)
    ensures user.Anonymous? ==> r == Success((Connection(roomName, ch, user, false), l))
    ensures r.Failure? <==> user.Authenticated? && !ValidGroupName(RoomGroupName(roomName))
    ensures r.Failure? ==> r.error == InvalidGroupName(RoomGroupName(roomName))
    ensures r.Success? ==> r.value.0.roomName == roomName && r.value.0.channel == ch && r.value.0.user == user
    ensures r.Success? ==> (r.value.0.accepted <==> user.Authenticated?)
    ensures r.Success? && user.Authenticated? ==>
      Subscribers(r.value.1, RoomGroupName(roomName)) == Subscribers(l, RoomGroupName(roomName)) + {ch}
    ensures r.Success? ==> forall g :: g != RoomGroupName(roomName) ==> Subscribers(r.value.1, g) == Subscribers(l, g)
  {
    if user.Anonymous? then Success((Connection(roomName, ch, user, false), l))
    else
      var l' :- GroupAdd(l, RoomGroupName(roomName), ch);
      Success((Connection(roomName, ch, user, true), l'))
  }

  /** Every accepted connection is open: frames can reach it. */
  lemma AcceptedIsOpen(l: Layer, roomName: string, ch: Channel, user: Principal)
    requires Connect(l, roomName, ch, user).Success? && Connect(l, roomName, ch, user).value.0.accepted
    ensures Open(Connect(l, roomName, ch, user).value.0)
  {
  }

  /** `disconnect`: the channel leaves the room's group; a group name the
      layer refuses raises here too. */
  function Disconnect(c: Connection, l: Layer): (r: Result<Layer, LayerError>)
    ensures r.Success? <==> ValidGroupName(RoomGroupName(c.roomName))
    ensures r.Success? ==>
      Subscribers(r.value, RoomGroupName(c.roomName)) == Subscribers(l, RoomGroupName(c.roomName)) - {c.channel}
    ensures r.Success? ==> forall g :: g != RoomGroupName(c.roomName) ==> Subscribers(r.value, g) == Subscribers(l, g)
    ensures r.Success? && c.channel !in Subscribers(l, RoomGroupName(c.roomName)) ==> r.value == l
  {
    GroupDiscard(l, RoomGroupName(c.roomName), c.channel)
  }

  /** An unauthenticated connection never subscribes, so its disconnect
      changes nothing either. */
  lemma AnonymousNeverSubscribed(l: Layer, roomName: string, ch: Channel)
    requires ch !in Subscribers(l, RoomGroupName(roomName))
    ensures Connect(l, roomName, ch, Anonymous).Success?
    ensures var (c, l') := Connect(l, roomName, ch, Anonymous).value;
      !c.accepted && l' == l && (Disconnect(c, l').Success? ==> Disconnect(c, l').value == l)
  {
  }

  /** Connecting and then disconnecting restores every group. */
  lemma ConnectThenDisconnect(l: Layer, roomName: string, ch: Channel, user: Principal)
    requires ValidGroupName(RoomGroupName(roomName)) && ch !in Subscribers(l, RoomGroupName(roomName))
    ensures Connect(l, roomName, ch, user).Success?
    ensures var (c, l') := Connect(l, roomName, ch, user).value;
      Disconnect(c, l').Success? && forall g :: Subscribers(Disconnect(c, l').value, g) == Subscribers(l, g)
  {
  }

  /** A room name with a character outside ASCII letters, digits, `-`, `_`
      and `.` (other than one final newline), or one long enough to make the
      group name 100 characters, fails an authenticated handshake. */
  lemma BadRoomNameFailsHandshake(l: Layer, roomName: string, ch: Channel, id: UserId, username: string, k: nat)
    requires (k < |roomName| && !GroupNameChar(roomName[k]) && (roomName[k] != '\n' || k + 1 < |roomName|))
             || |roomName| >= 95
    ensures Connect(l, roomName, ch, Authenticated(id, username)).Failure?
  {
    var g := RoomGroupName(roomName);
    if |roomName| < 95 {
      assert g[5 + k] == roomName[k];
      assert NameBody(g)[5 + k] == roomName[k];
    }
  }

  /** The three paths of `receive`. */
  datatype Route = Drop | Rebroadcast(payload: Json) | Persist(text: Json, roomType: Json)

  /** `receive`'s choice of path: `type` defaults to `group` and `msg_type`
      to `new_message`; a `new_message` without a truthy `message` is
      dropped, a `broadcast` with `message_data` is rebroadcast, and every
      other frame goes to `save_message`. */
  function RouteFrame(frame: map<string, Json>): (r: Route)
    ensures r.Drop? <==>
      !Truthy(Get(frame, "message", JNull)) && Get(frame, "msg_type", JString("new_message")) == JString("new_message")
    ensures r.Rebroadcast? <==>
      Get(frame, "msg_type", JString("new_message")) == JString("broadcast") && "message_data" in frame
    ensures r.Rebroadcast? ==> r.payload == frame["message_data"]
    ensures r.Persist? <==>
      && (Truthy(Get(frame, "message", JNull)) || Get(frame, "msg_type", JString("new_message")) != JString("new_message"))
      && (Get(frame, "msg_type", JString("new_message")) != JString("broadcast") || "message_data" !in frame)
    ensures r.Persist? ==> r.text == Get(frame, "message", JNull) && r.roomType == Get(frame, "type", JString("group"))
  {
    var text := Get(frame, "message", JNull);
    var roomType := Get(frame, "type", JString("group"));
    var msgType := Get(frame, "msg_type", JString("new_message"));
    if !Truthy(text) && msgType == JString("new_message") then Drop
    else if msgType == JString("broadcast") && "message_data" in frame then Rebroadcast(frame["message_data"])
    else Persist(text, roomType)
  }

  /** A frame with only a message is saved to a group room. */
  lemma DefaultsToGroupMessage(text: Json)
    requires Truthy(text)
    ensures RouteFrame(map["message" := text]) == Persist(text, JString("group"))
  {
  }

  /** The event `save_message` returns. */
  function MessageEvent(id: nat, user: Principal, content: Json, timestamp: string): (e: Json)
    requires user.Authenticated?
    ensures e.JObject? && e.fields.Keys == {"id", "sender", "content", "timestamp"}
    ensures e.fields["id"] == JNumber(id) && e.fields["content"] == content
    ensures e.fields["timestamp"] == JString(timestamp)
    ensures e.fields["sender"] == JObject(map["id" := JNumber(user.id), "username" := JString(user.username)])
  {
    JObject(map[
      "id" := JNumber(id),
      "sender" := JObject(map["id" := JNumber(user.id), "username" := JString(user.username)]),
      "content" := content,
      "timestamp" := JString(timestamp)])
  }

  /** What `save_message` comes to: a saved message and its event, nothing
      (`None`), or an exception it does not catch. A null `message` reaches
      the NOT NULL column and fails there. */
  datatype Saved = Stored(store: Store, event: Json) | NotStored | NullText

  /** The group branch of `save_message`. */
  function SaveToGroup(c: Connection, s: Store, roomId: int, text: Json, iso: nat -> string): (r: Saved)
    requires c.user.Authenticated?
    ensures r.NotStored? <==> roomId < 0 || FindGroup(s.groups, roomId).None?
    ensures r.NullText? <==> !r.NotStored? && text.JNull?
    ensures r.Stored? ==>
      && r.store.groupMessages == s.groupMessages + [NewGroupMessage(s.nextId, roomId, c.user.id, text, s.clock)]
      && r.store == s.(groupMessages := r.store.groupMessages, nextId := s.nextId + 1, clock := s.clock + 1)
      && r.event == MessageEvent(s.nextId, c.user, text, iso(s.clock))
  {
    if roomId < 0 || FindGroup(s.groups, roomId).None? then NotStored
    else if text.JNull? then NullText
    else
      var m := NewGroupMessage(s.nextId, roomId, c.user.id, text, s.clock);
      Stored(s.(groupMessages := s.groupMessages + [m], nextId := s.nextId + 1, clock := s.clock + 1),
             MessageEvent(m.id, c.user, text, iso(m.createdAt)))
  }

  /** The direct-chat branch of `save_message`: a text message with the
      model's defaults; the chat itself is not updated. */
  function SaveToChat(c: Connection, s: Store, roomId: int, text: Json, iso: nat -> string): (r: Saved)
    requires c.user.Authenticated?
    ensures r.NotStored? <==> roomId < 0 || FindChat(s.chats, roomId).None?
    ensures r.NullText? <==> !r.NotStored? && text.JNull?
    ensures r.Stored? ==>
      && r.store.directMessages
         == s.directMessages + [NewDirectMessage(s.nextId, roomId, c.user.id, text, TextMessage, "", s.clock)]
      && r.store == s.(directMessages := r.store.directMessages, nextId := s.nextId + 1, clock := s.clock + 1)
      && r.event == MessageEvent(s.nextId, c.user, text, iso(s.clock))
  {
    if roomId < 0 || FindChat(s.chats, roomId).None? then NotStored
    else if text.JNull? then NullText
    else
      var m := NewDirectMessage(s.nextId, roomId, c.user.id, text, TextMessage, "", s.clock);
      Stored(s.(directMessages := s.directMessages + [m], nextId := s.nextId + 1, clock := s.clock + 1),
             MessageEvent(m.id, c.user, text, iso(m.createdAt)))
  }

  /** `save_message`: the room name must be an integer and `type` must name
      a group or a direct chat, which must exist; the message is then stored
      with the connection's user as sender. Nothing checks that the user
      belongs to the group or the chat. */
  function SaveMessage(c: Connection, s: Store, text: Json, roomType: Json, iso: nat -> string): (r: Saved)
    requires c.user.Authenticated?
    ensures ParseInt(c.roomName).None? ==> r == NotStored
    ensures roomType != JString("group") && roomType != JString("dm") ==> r == NotStored
    ensures ParseInt(c.roomName).Some? && roomType == JString("group") ==>
      r == SaveToGroup(c, s, ParseInt(c.roomName).value, text, iso)
    ensures ParseInt(c.roomName).Some? && roomType == JString("dm") ==>
      r == SaveToChat(c, s, ParseInt(c.roomName).value, text, iso)
  {
    match ParseInt(c.roomName)
    case None => NotStored
    case Some(roomId) =>
      if roomType == JString("group") then SaveToGroup(c, s, roomId, text, iso)
      else if roomType == JString("dm") then SaveToChat(c, s, roomId, text, iso)
      else NotStored
  }

  /** A successful save stores exactly one message, sent by the connection's
      user with the frame's text, and changes nothing else. */
  lemma SaveStoresOne(c: Connection, s: Store, text: Json, roomType: Json, iso: nat -> string)
    requires c.user.Authenticated? && SaveMessage(c, s, text, roomType, iso).Stored?
    ensures var s' := SaveMessage(c, s, text, roomType, iso).store;
      |s'.groupMessages| + |s'.directMessages| == |s.groupMessages| + |s.directMessages| + 1
    ensures var s' := SaveMessage(c, s, text, roomType, iso).store;
      roomType == JString("group") ==>
        && s'.groupMessages[|s.groupMessages|].sender == Some(c.user.id)
        && s'.groupMessages[|s.groupMessages|].text == text
        && s'.directMessages == s.directMessages
    ensures var s' := SaveMessage(c, s, text, roomType, iso).store;
      roomType != JString("group") ==>
        && roomType == JString("dm")
        && s'.directMessages[|s.directMessages|].sender == c.user.id
        && s'.directMessages[|s.directMessages|].text == text
        && s'.groupMessages == s.groupMessages
  {
  }

  /** The group branch keeps every schema constraint. */
  lemma GroupSaveKeepsValid(c: Connection, s: Store, roomId: int, text: Json, iso: nat -> string)
    requires c.user.Authenticated? && Valid(s) && SaveToGroup(c, s, roomId, text, iso).Stored?
    ensures Valid(SaveToGroup(c, s, roomId, text, iso).store)
  {
    var t := s.groupMessages;
    var m := NewGroupMessage(s.nextId, roomId, c.user.id, text, s.clock);
    KeyedAppend(t, m, GroupMessageId, s.nextId);
    KeyedAppend(t, m, GroupMessageTime, s.clock);
    AdvanceKeepsValid(s, s.nextId + 1, s.clock + 1);
    assert SaveToGroup(c, s, roomId, text, iso).store
      == s.(nextId := s.nextId + 1, clock := s.clock + 1).(groupMessages := t + [m]);
  }

  /** The direct-chat branch keeps every schema constraint. */
  lemma ChatSaveKeepsValid(c: Connection, s: Store, roomId: int, text: Json, iso: nat -> string)
    requires c.user.Authenticated? && Valid(s) && SaveToChat(c, s, roomId, text, iso).Stored?
    ensures Valid(SaveToChat(c, s, roomId, text, iso).store)
  {
    var t := s.directMessages;
    var m := NewDirectMessage(s.nextId, roomId, c.user.id, text, TextMessage, "", s.clock);
    KeyedAppend(t, m, DirectMessageId, s.nextId);
    KeyedAppend(t, m, DirectMessageTime, s.clock);
    AdvanceKeepsValid(s, s.nextId + 1, s.clock + 1);
    assert SaveToChat(c, s, roomId, text, iso).store
      == s.(nextId := s.nextId + 1, clock := s.clock + 1).(directMessages := t + [m]);
  }

  /** A save from the socket keeps every schema constraint. */
  lemma SaveKeepsValid(c: Connection, s: Store, text: Json, roomType: Json, iso: nat -> string)
    requires c.user.Authenticated? && Valid(s) && SaveMessage(c, s, text, roomType, iso).Stored?
    ensures Valid(SaveMessage(c, s, text, roomType, iso).store)
  {
    var roomId := ParseInt(c.roomName).value;
    if roomType == JString("group") {
      GroupSaveKeepsValid(c, s, roomId, text, iso);
    } else {
      ChatSaveKeepsValid(c, s, roomId, text, iso);
    }
  }

  /** Saving needs no membership: the outcome is the same whatever the
      groups' members or the chats' participants are. */
  lemma SaveIgnoresMembership(c: Connection, s: Store, text: Json, roomType: Json, iso: nat -> string,
                              members: seq<GroupMember>, chats: seq<DirectChat>)
    requires c.user.Authenticated?
    requires |chats| == |s.chats| && forall j :: 0 <= j < |chats| ==> chats[j].id == s.chats[j].id
    ensures SaveMessage(c, s.(members := members, chats := chats), text, roomType, iso).Stored?
            == SaveMessage(c, s, text, roomType, iso).Stored?
  {
    var s2 := s.(members := members, chats := chats);
    match ParseInt(c.roomName)
    case None =>
    case Some(roomId) =>
      if roomType == JString("group") {
        GroupBranchIgnoresMembership(c, s, roomId, text, iso, members, chats);
        assert SaveMessage(c, s2, text, roomType, iso) == SaveToGroup(c, s2, roomId, text, iso);
      } else if roomType == JString("dm") {
        ChatBranchIgnoresMembership(c, s, roomId, text, iso, members, chats);
        assert SaveMessage(c, s2, text, roomType, iso) == SaveToChat(c, s2, roomId, text, iso);
      }
  }

  lemma GroupBranchIgnoresMembership(c: Connection, s: Store, roomId: int, text: Json, iso: nat -> string,
                                     members: seq<GroupMember>, chats: seq<DirectChat>)
    requires c.user.Authenticated?
    ensures SaveToGroup(c, s.(members := members, chats := chats), roomId, text, iso).Stored?
            == SaveToGroup(c, s, roomId, text, iso).Stored?
  {
    assert s.(members := members, chats := chats).groups == s.groups;
  }

  lemma ChatBranchIgnoresMembership(c: Connection, s: Store, roomId: int, text: Json, iso: nat -> string,
                                    members: seq<GroupMember>, chats: seq<DirectChat>)
    requires c.user.Authenticated?
    requires |chats| == |s.chats| && forall j :: 0 <= j < |chats| ==> chats[j].id == s.chats[j].id
    ensures SaveToChat(c, s.(members := members, chats := chats), roomId, text, iso).Stored?
            == SaveToChat(c, s, roomId, text, iso).Stored?
  {
    ChatIdsKept(s.chats, chats);
  }

  /** What handling a frame comes to: a new store and layer, or an exception
      that ends the handler. */
  datatype Outcome = Handled(store: Store, layer: Layer) | Crashed(reason: CrashReason)

  datatype CrashReason =
    | PayloadWithoutId  // the log line reads `message_data['id']`
    | NullMessageText   // the database refuses a null message text

  /** The group event `receive` sends; `chat_message` hands its message to
      every subscriber's socket under `message`. */
  function ChatEvent(message: Json): (e: Event)
    ensures Deliver(e) == JObject(map["message" := message])
  {
    Event("chat_message", message)
  }

  /** `receive`: drop; rebroadcast the client's payload unchanged after
      reading its `id`; or save and broadcast the saved message's event. At
      most one send is made, always to the connection's room group. */
  function Receive(c: Connection, s: Store, l: Layer, frame: map<string, Json>, iso: nat -> string)
    : (r: Outcome)
    requires Open(c)
    ensures RouteFrame(frame).Drop? ==> r == Handled(s, l)
    ensures RouteFrame(frame).Rebroadcast? ==>
      r == (if HasKey(RouteFrame(frame).payload, "id")
            then Handled(s, GroupSend(l, RoomGroupName(c.roomName), ChatEvent(RouteFrame(frame).payload)).value)
            else Crashed(PayloadWithoutId))
    ensures r.Handled? ==> r.layer.groups == l.groups
    ensures r.Handled? ==>
      r.layer == l
      || exists ev :: r.layer == GroupSend(l, RoomGroupName(c.roomName), ChatEvent(ev)).value
    ensures RouteFrame(frame).Persist?
      && SaveMessage(c, s, RouteFrame(frame).text, RouteFrame(frame).roomType, iso).NotStored?
      ==> r == Handled(s, l)
    ensures RouteFrame(frame).Persist?
      && SaveMessage(c, s, RouteFrame(frame).text, RouteFrame(frame).roomType, iso).NullText?
      ==> r == Crashed(NullMessageText)
    ensures r.Crashed? ==> r.reason == PayloadWithoutId || RouteFrame(frame).text.JNull?
  {
    match RouteFrame(frame)
    case Drop => Handled(s, l)
    case Rebroadcast(payload) =>
      if !HasKey(payload, "id") then Crashed(PayloadWithoutId)
      else Handled(s, GroupSend(l, RoomGroupName(c.roomName), ChatEvent(payload)).value)
    case Persist(text, roomType) =>
      match SaveMessage(c, s, text, roomType, iso)
      case NotStored => Handled(s, l)
      case NullText => Crashed(NullMessageText)
      case Stored(s', event) => Handled(s', GroupSend(l, RoomGroupName(c.roomName), ChatEvent(event)).value)
  }

  /** A saved message is announced once, to the room's group, with the
      event `{id, sender: {id, username}, content, timestamp}`. */
  lemma SavedThenAnnounced(c: Connection, s: Store, l: Layer, frame: map<string, Json>, iso: nat -> string)
    requires Open(c) && RouteFrame(frame).Persist?
    requires SaveMessage(c, s, RouteFrame(frame).text, RouteFrame(frame).roomType, iso).Stored?
    ensures var r := Receive(c, s, l, frame, iso);
      && r.Handled?
      && r.layer.sent == l.sent + [(RoomGroupName(c.roomName),
                                    ChatEvent(MessageEvent(s.nextId, c.user, RouteFrame(frame).text, iso(s.clock))))]
      && r.store == SaveMessage(c, s, RouteFrame(frame).text, RouteFrame(frame).roomType, iso).store
  {
  }

  /** A client that sends a saved message's event back as a `broadcast`
      frame has it rebroadcast unchanged: the event always has the `id` the
      handler reads. */
  lemma SavedEventRebroadcasts(c: Connection, s: Store, l: Layer, id: nat, content: Json, ts: string,
                               iso: nat -> string)
    requires Open(c)
    ensures var ev := MessageEvent(id, c.user, content, ts);
      Receive(c, s, l, map["msg_type" := JString("broadcast"), "message_data" := ev], iso)
      == Handled(s, GroupSend(l, RoomGroupName(c.roomName), ChatEvent(ev)).value)
  {
    var ev := MessageEvent(id, c.user, content, ts);
    var frame := map["msg_type" := JString("broadcast"), "message_data" := ev];
    assert RouteFrame(frame) == Rebroadcast(ev);
  }

  /** Two saved frames on one connection, say a group frame and a
      direct-message frame, are announced to the same group: `type` does not
      select the group. */
  lemma TypeDoesNotSelectGroup(c: Connection, s: Store, l: Layer, f1: map<string, Json>,
                               f2: map<string, Json>, iso: nat -> string)
    requires Open(c) && RouteFrame(f1).Persist? && RouteFrame(f2).Persist?
    requires SaveMessage(c, s, RouteFrame(f1).text, RouteFrame(f1).roomType, iso).Stored?
    requires SaveMessage(c, s, RouteFrame(f2).text, RouteFrame(f2).roomType, iso).Stored?
    ensures var g := Receive(c, s, l, f1, iso);
      var d := Receive(c, s, l, f2, iso);
      && g.Handled? && d.Handled?
      && |g.layer.sent| == |d.layer.sent| == |l.sent| + 1
      && g.layer.sent[|l.sent|].0 == d.layer.sent[|l.sent|].0 == RoomGroupName(c.roomName)
  {
    SavedThenAnnounced(c, s, l, f1, iso);
    SavedThenAnnounced(c, s, l, f2, iso);
  }

  /** Both room types really are saved from one frame shape: a frame with a
      truthy `message` and `type` set to `group` or `dm` goes to
      `save_message` with that type. */
  lemma TypedFramePersists(text: Json, roomType: string)
    requires Truthy(text) && (roomType == "group" || roomType == "dm")
    ensures RouteFrame(map["message" := text, "type" := JString(roomType)]) == Persist(text, JString(roomType))
  {
  }

  /** Room names that differ only in leading zeros ("007" and "7") save to
      the same room id but broadcast to different groups, since the group
      uses the raw name. */
  lemma {:induction false} RoomNameAliasing(k: nat, n: nat)
    requires k > 0
    ensures ParseInt(Zeros(k) + ToDecimal(n)) == ParseInt(ToDecimal(n)) == Some(n as int)
    ensures RoomGroupName(Zeros(k) + ToDecimal(n)) != RoomGroupName(ToDecimal(n))
  {
    LeadingZeros(k, n);
    LeadingZeros(0, n);
    assert Zeros(0) + ToDecimal(n) == ToDecimal(n);
    assert |RoomGroupName(Zeros(k) + ToDecimal(n))| != |RoomGroupName(ToDecimal(n))|;
  }

  /** `chat_message`: the frame written to the socket wraps the event's
      payload under `message` and adds nothing. */
  function Deliver(ev: Event): (frame: Json)
    ensures frame.JObject? && frame.fields.Keys == {"message"} && frame.fields["message"] == ev.message
  {
    JObject(map["message" := ev.message])
  }

  /** The socket frame determines the event's payload: two events are
      written alike exactly when they carry the same message, so a client
      reads back what `receive` sent. */
  lemma DeliverRecoversPayload(a: Event, b: Event)
    ensures Deliver(a) == Deliver(b) <==> a.message == b.message
  {
    if Deliver(a) == Deliver(b) {
      assert Deliver(a).fields["message"] == Deliver(b).fields["message"];
    }
  }
}

=== FILE: directchats.dfy ===
/** The direct-chat views: opening the chat with a friend (created on first
    use), listing a chat's messages, and posting a message to it. */
module DirectChatViews {
  import opened Wrappers
  import opened Tables
  import opened Text
  import opened JsonValues
  import opened Models

  /** The pair of `a` and `b` has an accepted friendship. */
  predicate Friends(t: seq<Friendship>, a: UserId, b: UserId)
  {
    var p := SortedPair(a, b);
    exists i :: 0 <= i < |t| && t[i].userOne == p.0 && t[i].userTwo == p.1 && t[i].status == Accepted
  }

  /** A chat row exists for the pair of `a` and `b`. */
  predicate HasChat(t: seq<DirectChat>, a: UserId, b: UserId)
  {
    var p := SortedPair(a, b);
    exists i :: 0 <= i < |t| && t[i].userOne == p.0 && t[i].userTwo == p.1
  }

  /** `DirectChatDetailView.get`: 404 for an unknown user, 403 without an
      accepted friendship on the sorted pair, otherwise `get_or_create` on
      that pair. A new chat's creation and last-message times are both now. */
  function OpenDirectChat(s: Store, caller: UserId, other: UserId)
    : (r: Result<(Store, DirectChat), ApiError>)
    ensures other !in s.users ==> r == Failure(UserNotFound)
    ensures other in s.users && !Friends(s.friendships, caller, other) ==> r == Failure(NotFriends)
    ensures r.Success? <==> other in s.users && Friends(s.friendships, caller, other)
    ensures r.Success? ==> (r.value.1.userOne, r.value.1.userTwo) == SortedPair(caller, other)
    ensures r.Success? && HasChat(s.chats, caller, other) ==>
      r.value.0 == s && r.value.1 == s.chats[FindChatPair(s.chats, r.value.1.userOne, r.value.1.userTwo).value]
    ensures r.Success? && !HasChat(s.chats, caller, other) ==>
      && r.value.1 == DirectChat(s.nextId, r.value.1.userOne, r.value.1.userTwo, s.clock, s.clock)
      && r.value.0 == s.(chats := s.chats + [r.value.1], nextId := s.nextId + 1, clock := s.clock + 1)
  {
    if other !in s.users then Failure(UserNotFound)
    else
      var p := SortedPair(caller, other);
      if FindAcceptedPair(s.friendships, p.0, p.1).None? then Failure(NotFriends)
      else match FindChatPair(s.chats, p.0, p.1)
        case Some(i) => Success((s, s.chats[i]))
        case None =>
          var c := DirectChat(s.nextId, p.0, p.1, s.clock, s.clock);
          Success((s.(chats := s.chats + [c], nextId := s.nextId + 1, clock := s.clock + 1), c))
  }

  /** A chat with oneself is always refused: no friendship row can pair a
      user with themself. */
  lemma SelfChatRefused(s: Store, u: UserId)
    requires Valid(s)
    ensures OpenDirectChat(s, u, u).Failure?
    ensures u in s.users ==> OpenDirectChat(s, u, u) == Failure(NotFriends)
  {
    assert SortedPair(u, u) == (u, u);
  }

  /** `get_or_create` is idempotent: opening the chat again, from either
      side, returns the same chat and changes nothing. */
  lemma OpenIdempotent(s: Store, caller: UserId, other: UserId)
    requires caller in s.users && OpenDirectChat(s, caller, other).Success?
    ensures var (s', c) := OpenDirectChat(s, caller, other).value;
      OpenDirectChat(s', caller, other) == Success((s', c))
      && OpenDirectChat(s', other, caller) == Success((s', c))
  {
    var (s', c) := OpenDirectChat(s, caller, other).value;
    var p := SortedPair(caller, other);
    assert SortedPair(other, caller) == p;
    assert Friends(s.friendships, other, caller);
    if !HasChat(s.chats, caller, other) {
      assert s'.chats[|s.chats|] == c;
      assert FindChatPair(s'.chats, p.0, p.1) == Some(|s.chats|) by {
        assert forall j :: 0 <= j < |s.chats| ==> s'.chats[j] == s.chats[j];
      }
    }
  }

  /** Opening a chat keeps every schema constraint. */
  lemma OpenKeepsValid(s: Store, caller: UserId, other: UserId)
    requires Valid(s) && OpenDirectChat(s, caller, other).Success?
    ensures Valid(OpenDirectChat(s, caller, other).value.0)
  {
    var (s', c) := OpenDirectChat(s, caller, other).value;
    if !HasChat(s.chats, caller, other) {
      var t := s.chats;
      var f := FindAcceptedPair(s.friendships, c.userOne, c.userTwo).value;
      assert c.userOne < c.userTwo by {
        assert s.friendships[f].userOne < s.friendships[f].userTwo;
      }
      assert forall i :: 0 <= i < |t| ==> (t[i].userOne, t[i].userTwo) != (c.userOne, c.userTwo);
      KeyedAppend(t, c, ChatId, s.nextId);
      AdvanceKeepsValid(s, s'.nextId, s'.clock);
      assert s' == s.(nextId := s'.nextId, clock := s'.clock).(chats := t + [c]);
    }
  }

  /** The caller is one of the chat's two users. */
  predicate InChat(c: DirectChat, caller: UserId)
  {
    caller == c.userOne || caller == c.userTwo
  }

  /** `DirectMessageListView.get_queryset`: nothing for a missing chat or a
      caller outside it, and otherwise every message of the chat. */
  function ListMessages(s: Store, caller: UserId, chatId: nat): (r: seq<DirectMessage>)
    ensures FindChat(s.chats, chatId).None? ==> r == []
    ensures FindChat(s.chats, chatId).Some? && !InChat(s.chats[FindChat(s.chats, chatId).value], caller)
      ==> r == []
    ensures forall i :: 0 <= i < |r| ==> r[i].chat == chatId && r[i] in s.directMessages
    ensures FindChat(s.chats, chatId).Some? && InChat(s.chats[FindChat(s.chats, chatId).value], caller)
      ==> forall j :: 0 <= j < |s.directMessages| && s.directMessages[j].chat == chatId
            ==> s.directMessages[j] in r
  {
    match FindChat(s.chats, chatId)
    case None => []
    case Some(i) =>
      if InChat(s.chats[i], caller) then Filter(s.directMessages, (m: DirectMessage) => m.chat == chatId)
      else []
  }

  /** The listing comes out in `created_at` order. */
  lemma ListInOrder(s: Store, caller: UserId, chatId: nat)
    requires Valid(s)
    ensures Ascending(ListMessages(s, caller, chatId), DirectMessageTime)
  {
    FilterAscending(s.directMessages, (m: DirectMessage) => m.chat == chatId, DirectMessageTime);
  }

  /** The wire name of a message type. */
  function TypeName(kind: MessageType): string
  {
    match kind
    case TextMessage => "text"
    case ImageMessage => "image"
    case FileMessage => "file"
    case AudioMessage => "audio"
  }

  /** The body's `message_type`: one of the four choices, text when absent. */
  function TypeChoice(raw: Option<string>): (r: Option<MessageType>)
    ensures raw.None? ==> r == Some(TextMessage)
    ensures r.Some? <==>
      raw.None? || raw.value == "text" || raw.value == "image" || raw.value == "file" || raw.value == "audio"
  {
    match raw
    case None => Some(TextMessage)
    case Some(name) =>
      if name == "text" then Some(TextMessage)
      else if name == "image" then Some(ImageMessage)
      else if name == "file" then Some(FileMessage)
      else if name == "audio" then Some(AudioMessage)
      else None
  }

  /** Every type's wire name reads back as that type. */
  lemma TypeRoundTrip(kind: MessageType)
    ensures TypeChoice(Some(TypeName(kind))) == Some(kind)
  {
  }

  /** The request body of a new message. */
  datatype MessageBody = MessageBody(text: Option<string>, kind: Option<string>, mediaUrl: Option<string>)

  /** The serializer accepts the body: the text is present, not blank once
      stripped and free of NUL characters; the type, if given, is a choice;
      the media URL, if given, may be blank and holds at most 500 characters
      and no NUL. */
  predicate BodyValid(b: MessageBody)
  {
    && b.text.Some? && CharFieldAccepts(b.text.value, false, None)
    && TypeChoice(b.kind).Some?
    && (b.mediaUrl.None? || CharFieldAccepts(b.mediaUrl.value, true, Some(500)))
  }

  /** The body check in terms of the text alone: with an acceptable type and
      media URL, the text is accepted exactly when it is present, holds a
      non-whitespace character and holds no NUL. */
  lemma BodyTextRule(b: MessageBody)
    requires TypeChoice(b.kind).Some? && b.mediaUrl.None?
    ensures BodyValid(b) <==>
      b.text.Some? && '\0' !in b.text.value
      && exists i :: 0 <= i < |b.text.value| && !IsSpace(b.text.value[i])
  {
    if b.text.Some? {
      var v := b.text.value;
      StripShape(v, IsSpace);
      if Strip(v) != "" {
        var i := |v| - |TrimStart(v, IsSpace)|;
        assert v[i] == Strip(v)[0];
      } else {
        forall i | 0 <= i < |v| ensures IsSpace(v[i]) {
        }
      }
    }
  }

  /** The checks `DirectMessageListView.create` makes before saving, in
      order: 404 for a missing chat, 403 for a caller outside it, 400 for a
      body the serializer refuses. On success, the chat's position. */
  function PostChecks(s: Store, caller: UserId, chatId: nat, body: MessageBody): (r: Result<nat, ApiError>)
    ensures FindChat(s.chats, chatId).None? ==> r == Failure(ChatNotFound)
    ensures FindChat(s.chats, chatId).Some? && !InChat(s.chats[FindChat(s.chats, chatId).value], caller)
      ==> r == Failure(NotInChat)
    ensures (FindChat(s.chats, chatId).Some? && InChat(s.chats[FindChat(s.chats, chatId).value], caller)
             && !BodyValid(body)) ==> r == Failure(InvalidMessage)
    ensures r.Success? ==>
      (FindChat(s.chats, chatId) == Some(r.value) && InChat(s.chats[r.value], caller) && BodyValid(body))
    ensures (FindChat(s.chats, chatId).Some? && InChat(s.chats[FindChat(s.chats, chatId).value], caller)
             && BodyValid(body)) ==> r == Success(FindChat(s.chats, chatId).value)
  {
    match FindChat(s.chats, chatId)
    case None => Failure(ChatNotFound)
    case Some(i) =>
      if !InChat(s.chats[i], caller) then Failure(NotInChat)
      else if !BodyValid(body) then Failure(InvalidMessage)
      else Success(i)
  }

  /** `DirectMessageListView.create`: after the checks, the message is stored
      with the stripped text and the caller as sender, and the chat's
      last-message time is set to a later now. */
  function PostMessage(s: Store, caller: UserId, chatId: nat, body: MessageBody)
    : (r: Result<(Store, DirectMessage), ApiError>)
    ensures r.Failure? <==> PostChecks(s, caller, chatId, body).Failure?
    ensures r.Failure? ==> r.error == PostChecks(s, caller, chatId, body).error
    ensures r.Success? ==>
      var i := PostChecks(s, caller, chatId, body).value;
      var m := r.value.1;
      && m == NewDirectMessage(s.nextId, chatId, caller, JString(Strip(body.text.value)),
                               TypeChoice(body.kind).value, Strip(body.mediaUrl.GetOr("")), s.clock)
      && r.value.0 == Posted(s, i, m)
  {
    var i :- PostChecks(s, caller, chatId, body);
    var m := NewDirectMessage(s.nextId, chatId, caller, JString(Strip(body.text.value)),
                              TypeChoice(body.kind).value, Strip(body.mediaUrl.GetOr("")), s.clock);
    Success((Posted(s, i, m), m))
  }

  /** The store after a post: the message appended, the chat at position `i`
      touched one tick after the message's creation, and the allocator and
      the clock advanced. */
  function Posted(s: Store, i: nat, m: DirectMessage): Store
    requires i < |s.chats|
  {
    s.(directMessages := s.directMessages + [m],
       chats := s.chats[i := s.chats[i].(lastMessageAt := s.clock + 1)],
       nextId := s.nextId + 1, clock := s.clock + 2)
  }

  /** Appending a message that takes the next id and the current time, and
      touching its chat, keeps every schema constraint. */
  lemma PostedKeepsValid(s: Store, i: nat, m: DirectMessage)
    requires Valid(s) && i < |s.chats| && m.id == s.nextId && m.createdAt == s.clock
    ensures Valid(Posted(s, i, m))
  {
    var t := s.directMessages;
    KeyedAppend(t, m, DirectMessageId, s.nextId);
    KeyedAppend(t, m, DirectMessageTime, s.clock);
    KeyedGrow(t + [m], DirectMessageTime, s.clock + 1, s.clock + 2);
    var c' := s.chats[i := s.chats[i].(lastMessageAt := s.clock + 1)];
    TouchChat(s.chats, i, s.clock + 1, s.nextId);
    AdvanceKeepsValid(s, s.nextId + 1, s.clock + 2);
    assert Posted(s, i, m) == s.(nextId := s.nextId + 1, clock := s.clock + 2).(directMessages := t + [m], chats := c');
  }

  /** After the append, a participant's listing of the message's chat ends
      with the message. */
  lemma PostedListsLast(s: Store, i: nat, m: DirectMessage, reader: UserId)
    requires i < |s.chats| && FindChat(s.chats, m.chat) == Some(i) && InChat(s.chats[i], reader)
    requires ChatsValid(s.chats, s.nextId)
    ensures var l := ListMessages(Posted(s, i, m), reader, m.chat);
      |l| > 0 && l[|l| - 1] == m
  {
    var s' := Posted(s, i, m);
    var p := (x: DirectMessage) => x.chat == m.chat;
    TouchChat(s.chats, i, s.clock + 1, s.nextId);
    assert FindChat(s'.chats, m.chat) == Some(i);
    FilterAppend(s.directMessages, [m], p);
  }

  /** The failures of a post come in the order 404, 403, 400. */
  lemma PostErrorOrder(s: Store, caller: UserId, chatId: nat, body: MessageBody)
    requires PostMessage(s, caller, chatId, body).Failure?
    ensures var e := PostMessage(s, caller, chatId, body).error;
      && (HttpStatus(e) == 404 <==> FindChat(s.chats, chatId).None?)
      && (HttpStatus(e) == 403 <==>
            FindChat(s.chats, chatId).Some? && !InChat(s.chats[FindChat(s.chats, chatId).value], caller))
      && (HttpStatus(e) == 400 <==>
            FindChat(s.chats, chatId).Some? && InChat(s.chats[FindChat(s.chats, chatId).value], caller))
  {
  }

  /** A posted message is stored unedited, as `sent`, and deleted for
      neither side; blank text and NUL characters never reach the store. */
  lemma PostedDefaults(s: Store, caller: UserId, chatId: nat, body: MessageBody)
    requires PostMessage(s, caller, chatId, body).Success?
    ensures var m := PostMessage(s, caller, chatId, body).value.1;
      && m.sender == caller && m.chat == chatId
      && m.deliveryStatus == Sent && m.editedAt == None
      && !m.deletedForSender && !m.deletedForReceiver
      && m.text.JString? && m.text.s != "" && Strip(m.text.s) == m.text.s
      && '\0' !in m.text.s
  {
    var m := PostMessage(s, caller, chatId, body).value.1;
    assert BodyValid(body);
    var v := body.text.value;
    var t := Strip(v);
    assert m.text == JString(t);
    StripIdempotent(v, IsSpace);
    StripKeepsChars(v, IsSpace, '\0');
  }

  /** After a post, listing the chat as either participant ends with the new
      message. */
  lemma PostThenList(s: Store, caller: UserId, chatId: nat, body: MessageBody, reader: UserId)
    requires Valid(s) && PostMessage(s, caller, chatId, body).Success?
    requires var c := s.chats[FindChat(s.chats, chatId).value]; InChat(c, reader)
    ensures var (s', m) := PostMessage(s, caller, chatId, body).value;
      var l := ListMessages(s', reader, chatId);
      |l| > 0 && l[|l| - 1] == m
  {
    var m := PostMessage(s, caller, chatId, body).value.1;
    var i := PostChecks(s, caller, chatId, body).value;
    assert m.chat == chatId;
    PostedListsLast(s, i, m, reader);
  }

  /** Posting keeps every schema constraint. */
  lemma PostKeepsValid(s: Store, caller: UserId, chatId: nat, body: MessageBody)
    requires Valid(s) && PostMessage(s, caller, chatId, body).Success?
    ensures Valid(PostMessage(s, caller, chatId, body).value.0)
  {
    var m := PostMessage(s, caller, chatId, body).value.1;
    var i := PostChecks(s, caller, chatId, body).value;
    assert m.id == s.nextId && m.createdAt == s.clock;
    PostedKeepsValid(s, i, m);
  }
}

=== FILE: friendships.dfy ===
/** The friendship views: sending a friend request (from the friendship list
    and, as the code stands, from the group list too), and accepting or
    deleting a friendship one takes part in. */
module FriendshipViews {
  import opened Wrappers
  import opened Tables
  import opened Models

  /** Some friendship row, in any status, is stored for the pair of `a` and `b`. */
  predicate PairTaken(t: seq<Friendship>, a: UserId, b: UserId)
  {
    var p := SortedPair(a, b);
    exists i :: 0 <= i < |t| && t[i].userOne == p.0 && t[i].userTwo == p.1
  }

  /** `s'` is `s` with one new pending friendship of `a` and `b` appended,
      stored as the ascending pair and recording `requester`; the allocator
      and the clock advance and nothing else changes. */
  predicate Requested(s: Store, s': Store, a: UserId, b: UserId, requester: Option<UserId>)
  {
    && |s'.friendships| == |s.friendships| + 1
    && s'.friendships[..|s.friendships|] == s.friendships
    && s'.friendships[|s.friendships|].userOne < s'.friendships[|s.friendships|].userTwo
    && multiset{s'.friendships[|s.friendships|].userOne, s'.friendships[|s.friendships|].userTwo}
       == multiset{a, b}
    && s'.friendships[|s.friendships|].requester == requester
    && s'.friendships[|s.friendships|].status == Pending
    && s'.friendships[|s.friendships|].id == s.nextId
    && s' == s.(friendships := s'.friendships, nextId := s.nextId + 1, clock := s.clock + 1)
  }

  /** The body both create views share; `requester` is what the view records. */
  function RequestFriendship(s: Store, caller: UserId, target: UserId, requester: Option<UserId>)
    : (r: Result<Store, ApiError>)
    ensures caller == target ==> r == Failure(SelfFriendRequest)
    ensures caller != target && target !in s.users ==> r == Failure(TargetUserNotFound)
    ensures caller != target && target in s.users && PairTaken(s.friendships, caller, target)
      ==> r == Failure(FriendshipExists)
    ensures r.Success? <==>
      caller != target && target in s.users && !PairTaken(s.friendships, caller, target)
    ensures r.Success? ==> Requested(s, r.value, caller, target, requester)
  {
    if caller == target then Failure(SelfFriendRequest)
    else if target !in s.users then Failure(TargetUserNotFound)
    else
      var p := SortedPair(caller, target);
      if FindPair(s.friendships, p.0, p.1).Some? then Failure(FriendshipExists)
      else
        var f := NewFriendship(s.nextId, p.0, p.1, requester, s.clock);
        Success(s.(friendships := s.friendships + [f], nextId := s.nextId + 1, clock := s.clock + 1))
  }

  /** The request body's optional `status` must be one of the choices. */
  predicate StatusChoice(status: Option<string>)
  {
    status.None? || status.value == "pending" || status.value == "accepted"
  }

  /** A given status passes exactly when it is the stored value of one of
      `Friendship.Status`'s members. */
  lemma StatusChoiceNames(status: Option<string>)
    ensures StatusChoice(status) <==>
      status.None? || exists st: FriendshipStatus :: StatusName(st) == status.value
  {
    if status.Some? && status.value == "pending" {
      assert StatusName(Pending) == status.value;
    } else if status.Some? && status.value == "accepted" {
      assert StatusName(Accepted) == status.value;
    }
  }

  /** `FriendshipListView.create`: `FriendshipSerializer` checks the body's
      `status` first; `perform_create` then ignores it and stores a pending
      friendship with no requester recorded. */
  function FriendshipListCreate(s: Store, caller: UserId, target: UserId, status: Option<string>)
    : (r: Result<Store, ApiError>)
    ensures !StatusChoice(status) ==> r == Failure(InvalidStatus)
    ensures r.Success? <==>
      StatusChoice(status) && caller != target && target in s.users && !PairTaken(s.friendships, caller, target)
    ensures r.Success? ==> Requested(s, r.value, caller, target, None)
    ensures r.Failure? ==> r.error in {InvalidStatus, SelfFriendRequest, TargetUserNotFound, FriendshipExists}
  {
    if !StatusChoice(status) then Failure(InvalidStatus)
    else RequestFriendship(s, caller, target, None)
  }

  /** The group fields of a request body that `GroupSerializer` reads. */
  datatype GroupBody = GroupBody(name: Option<string>, description: Option<string>, groupType: Option<string>)

  /** `GroupSerializer` accepts the body: `group_name` is required, not
      blank and at most 100 characters; a description may be blank; the
      type, if given, is public, private or locked; no NUL anywhere. */
  predicate GroupBodyValid(b: GroupBody)
  {
    && b.name.Some? && CharFieldAccepts(b.name.value, false, Some(100))
    && (b.description.None? || CharFieldAccepts(b.description.value, true, None))
    && (b.groupType.None? || b.groupType.value in {"public", "private", "locked"})
  }

  /** `GroupListView.create`: `GroupSerializer` checks the body first, and
      then `perform_create`, despite the view's name, creates a pending
      friendship recording the caller as requester, and no group. */
  function GroupListCreate(s: Store, caller: UserId, target: UserId, body: GroupBody)
    : (r: Result<Store, ApiError>)
    ensures !GroupBodyValid(body) ==> r == Failure(InvalidGroupBody)
    ensures r.Success? <==>
      GroupBodyValid(body) && caller != target && target in s.users && !PairTaken(s.friendships, caller, target)
    ensures r.Success? ==> Requested(s, r.value, caller, target, Some(caller))
    ensures r.Success? ==> r.value.groups == s.groups && r.value.members == s.members
    ensures r.Failure? ==> r.error in {InvalidGroupBody, SelfFriendRequest, TargetUserNotFound, FriendshipExists}
  {
    if !GroupBodyValid(body) then Failure(InvalidGroupBody)
    else RequestFriendship(s, caller, target, Some(caller))
  }

  /** A body holding only `user_id`, the one field `perform_create` reads,
      is refused by the group list with 400: a friend request through it
      also needs a valid `group_name`. */
  lemma BareRequestRefused(s: Store, caller: UserId, target: UserId)
    ensures GroupListCreate(s, caller, target, GroupBody(None, None, None)) == Failure(InvalidGroupBody)
    ensures HttpStatus(InvalidGroupBody) == 400
  {
  }

  /** A body with a valid name makes the group list behave as a friend
      request that records its sender. */
  lemma NamedRequest(s: Store, caller: UserId, target: UserId, name: string)
    requires CharFieldAccepts(name, false, Some(100))
    ensures GroupListCreate(s, caller, target, GroupBody(Some(name), None, None))
      == RequestFriendship(s, caller, target, Some(caller))
  {
  }

  /** Requests from either side address the same record: both succeed or
      both fail, and on success they store the same pair. */
  lemma EitherSide(s: Store, a: UserId, b: UserId, q: Option<UserId>, q': Option<UserId>)
    requires a in s.users && b in s.users
    ensures RequestFriendship(s, a, b, q).Success? == RequestFriendship(s, b, a, q').Success?
    ensures RequestFriendship(s, a, b, q).Success? ==>
      var n := |s.friendships|;
      RequestFriendship(s, a, b, q).value.friendships[n].userOne
        == RequestFriendship(s, b, a, q').value.friendships[n].userOne
      && RequestFriendship(s, a, b, q).value.friendships[n].userTwo
        == RequestFriendship(s, b, a, q').value.friendships[n].userTwo
  {
    assert SortedPair(a, b) == SortedPair(b, a);
    assert PairTaken(s.friendships, a, b) == PairTaken(s.friendships, b, a);
    if RequestFriendship(s, a, b, q).Success? {
      var n := |s.friendships|;
      var f := RequestFriendship(s, a, b, q).value.friendships[n];
      var g := RequestFriendship(s, b, a, q').value.friendships[n];
      assert (f.userOne, f.userTwo) == SortedPair(a, b);
      assert (g.userOne, g.userTwo) == SortedPair(b, a);
    }
  }

  /** Once a request is stored, the reverse request is refused as a duplicate. */
  lemma ReverseRefused(s: Store, a: UserId, b: UserId, q: Option<UserId>, q': Option<UserId>)
    requires a in s.users && RequestFriendship(s, a, b, q).Success?
    ensures RequestFriendship(RequestFriendship(s, a, b, q).value, b, a, q') == Failure(FriendshipExists)
  {
    var s' := RequestFriendship(s, a, b, q).value;
    var n := |s.friendships|;
    assert s'.friendships[n].userOne == SortedPair(b, a).0;
    assert s'.friendships[n].userTwo == SortedPair(b, a).1;
    assert PairTaken(s'.friendships, b, a);
  }

  /** A new request keeps every schema constraint. */
  lemma RequestKeepsValid(s: Store, caller: UserId, target: UserId, q: Option<UserId>)
    requires Valid(s) && RequestFriendship(s, caller, target, q).Success?
    ensures Valid(RequestFriendship(s, caller, target, q).value)
  {
    var s' := RequestFriendship(s, caller, target, q).value;
    var t := s.friendships;
    var f := s'.friendships[|t|];
    assert s'.friendships == t + [f];
    assert forall i :: 0 <= i < |t| ==> (t[i].userOne, t[i].userTwo) != (f.userOne, f.userTwo);
    KeyedAppend(t, f, FriendshipId, s.nextId);
    assert FriendshipsValid(s'.friendships, s'.nextId);
    AdvanceKeepsValid(s, s'.nextId, s'.clock);
    assert s' == s.(nextId := s'.nextId, clock := s'.clock).(friendships := s'.friendships);
  }

  /** `FriendshipDetailView.get_object`: the row with id `pk`, which the
      caller must take part in. */
  function FriendshipFor(s: Store, caller: UserId, pk: nat): (r: Result<nat, ApiError>)
    ensures r.Success? ==> r.value < |s.friendships| && s.friendships[r.value].id == pk
    ensures r.Success? ==>
      caller == s.friendships[r.value].userOne || caller == s.friendships[r.value].userTwo
    ensures r == Failure(FriendshipNotFound) <==>
      forall i :: 0 <= i < |s.friendships| ==> s.friendships[i].id != pk
    ensures r.Failure? ==> r.error == FriendshipNotFound || r.error == NotParticipant
  {
    match FindFriendship(s.friendships, pk)
    case None => Failure(FriendshipNotFound)
    case Some(i) =>
      var f := s.friendships[i];
      if caller == f.userOne || caller == f.userTwo then Success(i) else Failure(NotParticipant)
  }

  /** Exactly the two participants may access a stored friendship. */
  lemma ParticipantsOnly(s: Store, caller: UserId, i: nat)
    requires Valid(s) && i < |s.friendships|
    ensures FriendshipFor(s, caller, s.friendships[i].id).Success? <==>
      caller == s.friendships[i].userOne || caller == s.friendships[i].userTwo
  {
    FindFriendshipUnique(s.friendships, s.nextId, i);
  }

  /** The participant who did not send the request. */
  function Receiver(f: Friendship): (u: UserId)
    ensures f.userOne != f.userTwo ==> u == f.userOne || u == f.userTwo
    ensures (f.userOne != f.userTwo && f.requester.Some?
             && (f.requester.value == f.userOne || f.requester.value == f.userTwo))
      ==> Some(u) != f.requester
  {
    if f.requester == Some(f.userOne) then f.userTwo else f.userOne
  }

  /** `FriendshipDetailView.update` with `perform_update`: after access and
      the body's validation, only a pending friendship can be accepted, by
      either participant when no requester is recorded and otherwise by the
      receiver. Success sets the status to accepted and changes nothing else. */
  function AcceptFriendship(s: Store, caller: UserId, pk: nat, status: Option<string>)
    : (r: Result<Store, ApiError>)
    ensures FriendshipFor(s, caller, pk).Failure? ==> r == Failure(FriendshipFor(s, caller, pk).error)
    ensures FriendshipFor(s, caller, pk).Success? && !StatusChoice(status) ==> r == Failure(InvalidStatus)
    ensures r.Success? ==>
      var i := FriendshipFor(s, caller, pk).value;
      && FriendshipFor(s, caller, pk).Success?
      && s.friendships[i].status == Pending
      && r.value == s.(friendships := s.friendships[i := s.friendships[i].(status := Accepted)])
    ensures r.Failure? ==> HttpStatus(r.error) == 404 || HttpStatus(r.error) == 403
                           || r.error == InvalidStatus
  {
    var i :- FriendshipFor(s, caller, pk);
    if !StatusChoice(status) then Failure(InvalidStatus)
    else
      var f := s.friendships[i];
      if f.status != Pending then Failure(AlreadyAccepted)
      else if f.requester.None? || caller == Receiver(f) then
        Success(s.(friendships := s.friendships[i := f.(status := Accepted)]))
      else Failure(OwnRequest)
  }

  /** With a requester recorded, of the two participants only the other one
      may accept a pending request, whatever valid `status` the body gives. */
  lemma ReceiverOnly(s: Store, caller: UserId, i: nat, status: Option<string>)
    requires Valid(s) && i < |s.friendships| && StatusChoice(status)
    requires var f := s.friendships[i];
      f.status == Pending && f.requester.Some?
      && (f.requester.value == f.userOne || f.requester.value == f.userTwo)
    requires caller == s.friendships[i].userOne || caller == s.friendships[i].userTwo
    ensures AcceptFriendship(s, caller, s.friendships[i].id, status).Success? <==>
      Some(caller) != s.friendships[i].requester
  {
    ParticipantsOnly(s, caller, i);
  }

  /** With no requester recorded, either participant may accept, whatever
      valid `status` the body gives. */
  lemma NullRequesterEitherAccepts(s: Store, caller: UserId, i: nat, status: Option<string>)
    requires Valid(s) && i < |s.friendships| && StatusChoice(status)
    requires s.friendships[i].status == Pending && s.friendships[i].requester.None?
    requires caller == s.friendships[i].userOne || caller == s.friendships[i].userTwo
    ensures AcceptFriendship(s, caller, s.friendships[i].id, status).Success?
  {
    ParticipantsOnly(s, caller, i);
  }

  /** A friendship that is no longer pending cannot be accepted again. */
  lemma AcceptOnce(s: Store, caller: UserId, pk: nat, status: Option<string>, caller': UserId)
    requires AcceptFriendship(s, caller, pk, status).Success?
    requires FriendshipFor(AcceptFriendship(s, caller, pk, status).value, caller', pk).Success?
    requires StatusChoice(status)
    ensures AcceptFriendship(AcceptFriendship(s, caller, pk, status).value, caller', pk, status)
      == Failure(AlreadyAccepted)
  {
    var i := FriendshipFor(s, caller, pk).value;
    var s' := AcceptFriendship(s, caller, pk, status).value;
    assert FindFriendship(s'.friendships, pk) == FindFriendship(s.friendships, pk)
    by {
      IdsUnchanged(s.friendships, i, s.friendships[i].(status := Accepted), pk);
    }
  }

  /** Rewriting one row without touching its id leaves the id lookup alone. */
  lemma {:induction false} IdsUnchanged(t: seq<Friendship>, i: nat, f: Friendship, pk: nat)
    requires i < |t| && f.id == t[i].id
    ensures FindFriendship(t[i := f], pk) == FindFriendship(t, pk)
    decreases |t|
  {
    if 0 < i {
      assert t[i := f][1..] == t[1..][i - 1 := f];
      IdsUnchanged(t[1..], i - 1, f, pk);
    }
  }

  /** Accepting keeps every schema constraint. */
  lemma AcceptKeepsValid(s: Store, caller: UserId, pk: nat, status: Option<string>)
    requires Valid(s) && AcceptFriendship(s, caller, pk, status).Success?
    ensures Valid(AcceptFriendship(s, caller, pk, status).value)
  {
    var i := FriendshipFor(s, caller, pk).value;
    var t := s.friendships;
    var t' := t[i := t[i].(status := Accepted)];
    assert forall j :: 0 <= j < |t| ==> FriendshipId(t'[j]) == FriendshipId(t[j]);
    assert FriendshipsValid(t', s.nextId);
  }

  /** `perform_destroy`: either participant deletes the row, in any status. */
  function DeleteFriendship(s: Store, caller: UserId, pk: nat): (r: Result<Store, ApiError>)
    ensures FriendshipFor(s, caller, pk).Failure? ==> r == Failure(FriendshipFor(s, caller, pk).error)
    ensures r.Success? ==>
      && FriendshipFor(s, caller, pk).Success?
      && r.value == s.(friendships := RemoveAt(s.friendships, FriendshipFor(s, caller, pk).value))
    ensures r.Success? <==> FriendshipFor(s, caller, pk).Success?
    ensures r.Success? ==> |r.value.friendships| == |s.friendships| - 1
  {
    var i :- FriendshipFor(s, caller, pk);
    Success(s.(friendships := RemoveAt(s.friendships, i)))
  }

  /** Deleting keeps every schema constraint. */
  lemma DeleteKeepsValid(s: Store, caller: UserId, pk: nat)
    requires Valid(s) && DeleteFriendship(s, caller, pk).Success?
    ensures Valid(DeleteFriendship(s, caller, pk).value)
  {
    var i := FriendshipFor(s, caller, pk).value;
    var t := s.friendships;
    var t' := RemoveAt(t, i);
    KeyedRemoveAt(t, i, FriendshipId, s.nextId);
    forall a, b | 0 <= a < b < |t'|
      ensures (t'[a].userOne, t'[a].userTwo) != (t'[b].userOne, t'[b].userTwo)
    {
      var a' := if a < i then a else a + 1;
      var b' := if b < i then b else b + 1;
      assert t'[a] == t[a'] && t'[b] == t[b'];
    }
  }

  /** After a friendship is deleted the pair is free again, so either user may
      send a new request. */
  lemma DeleteFreesPair(s: Store, caller: UserId, pk: nat, a: UserId, q: Option<UserId>)
    requires Valid(s) && DeleteFriendship(s, caller, pk).Success?
    requires var f := s.friendships[FriendshipFor(s, caller, pk).value];
      a == f.userOne || a == f.userTwo
    requires var f := s.friendships[FriendshipFor(s, caller, pk).value];
      f.userOne in s.users && f.userTwo in s.users
    ensures var f := s.friendships[FriendshipFor(s, caller, pk).value];
      var other := if a == f.userOne then f.userTwo else f.userOne;
      RequestFriendship(DeleteFriendship(s, caller, pk).value, a, other, q).Success?
  {
    var i := FriendshipFor(s, caller, pk).value;
    var t := s.friendships;
    var f := t[i];
    var t' := RemoveAt(t, i);
    var other := if a == f.userOne then f.userTwo else f.userOne;
    assert SortedPair(a, other) == (f.userOne, f.userTwo);
    forall j | 0 <= j < |t'|
      ensures (t'[j].userOne, t'[j].userTwo) != (f.userOne, f.userTwo)
    {
      if j < i {
        assert t'[j] == t[j];
      } else {
        assert t'[j] == t[j + 1];
      }
    }
    assert !PairTaken(t', a, other);
  }
}

=== FILE: groups.dfy ===
/** `GroupMemberView`: a group admin adds a user to the group or removes a
    member, and the last admin of a group cannot be removed. */
module GroupViews {
  import opened Wrappers
  import opened Tables
  import opened Models
  import opened Permissions

  /** The wire name of a role. */
  function RoleName(role: Role): string
  {
    match role
    case Admin => "admin"
    case Member => "member"
  }

  /** The request body's `role`: one of the two choices, `member` when absent. */
  function RoleChoice(raw: Option<string>): (r: Result<Role, ApiError>)
    ensures raw.None? ==> r == Success(Member)
    ensures r.Success? <==> raw.None? || raw.value == "admin" || raw.value == "member"
    ensures r.Failure? ==> r.error == InvalidRole
  {
    match raw
    case None => Success(Member)
    case Some(name) =>
      if name == "admin" then Success(Admin)
      else if name == "member" then Success(Member)
      else Failure(InvalidRole)
  }

  /** Every role's wire name reads back as that role. */
  lemma RoleRoundTrip(role: Role)
    ensures RoleChoice(Some(RoleName(role))) == Success(role)
  {
  }

  /** The user has a membership row in the group. */
  predicate IsMember(t: seq<GroupMember>, group: nat, user: UserId)
  {
    exists i :: 0 <= i < |t| && t[i].group == group && t[i].user == user
  }

  /** `get_object_or_404` on the group, then `check_object_permissions`. */
  function AdminAccess(s: Store, caller: UserId, pk: nat): (r: Result<nat, ApiError>)
    ensures r.Success? ==> r.value < |s.groups| && s.groups[r.value].id == pk
    ensures r.Success? <==>
      (exists i :: 0 <= i < |s.groups| && s.groups[i].id == pk) && IsGroupAdmin(s.members, pk, caller)
    ensures r.Failure? ==>
      r.error == (if (forall i :: 0 <= i < |s.groups| ==> s.groups[i].id != pk)
                  then GroupNotFound else NotGroupAdmin)
  {
    match FindGroup(s.groups, pk)
    case None => Failure(GroupNotFound)
    case Some(g) => if IsGroupAdmin(s.members, pk, caller) then Success(g) else Failure(NotGroupAdmin)
  }

  /** `s'` is `s` with one new, unmuted membership of `user` in `group` with
      `role`, recording the caller as the one who added it; the allocator
      advances and nothing else changes. */
  predicate Added(s: Store, s': Store, group: nat, user: UserId, role: Role, caller: UserId)
  {
    && |s'.members| == |s.members| + 1
    && s'.members[..|s.members|] == s.members
    && s'.members[|s.members|].group == group
    && s'.members[|s.members|].user == user
    && s'.members[|s.members|].role == role
    && s'.members[|s.members|].addedBy == Some(caller)
    && !s'.members[|s.members|].isMuted
    && s'.members[|s.members|].id == s.nextId
    && s' == s.(members := s'.members, nextId := s.nextId + 1)
  }

  /** `GroupMemberView.post`: validate the body, find the group, require an
      admin caller, then add a known user who is not yet a member. */
  function AddMember(s: Store, caller: UserId, pk: nat, user: UserId, role: Option<string>)
    : (r: Result<Store, ApiError>)
    ensures RoleChoice(role).Failure? ==> r == Failure(InvalidRole)
    ensures RoleChoice(role).Success? && AdminAccess(s, caller, pk).Failure?
      ==> r == Failure(AdminAccess(s, caller, pk).error)
    ensures RoleChoice(role).Success? && AdminAccess(s, caller, pk).Success? && user !in s.users
      ==> r == Failure(UserToAddNotFound)
    ensures (RoleChoice(role).Success? && AdminAccess(s, caller, pk).Success? && user in s.users
             && IsMember(s.members, pk, user)) ==> r == Failure(AlreadyMember)
    ensures r.Success? ==>
      RoleChoice(role).Success? && AdminAccess(s, caller, pk).Success?
      && user in s.users && !IsMember(s.members, pk, user)
      && Added(s, r.value, pk, user, RoleChoice(role).value, caller)
  {
    var chosen :- RoleChoice(role);
    var _ :- AdminAccess(s, caller, pk);
    if user !in s.users then Failure(UserToAddNotFound)
    else if FindMember(s.members, pk, user).Some? then Failure(AlreadyMember)
    else
      var m := NewMember(s.nextId, pk, user, chosen, caller);
      Success(s.(members := s.members + [m], nextId := s.nextId + 1))
  }

  /** Every path that passes validation and the permission check adds the
      user exactly when they are known and not yet a member. */
  lemma AddOutcome(s: Store, caller: UserId, pk: nat, user: UserId, role: Option<string>)
    requires RoleChoice(role).Success? && AdminAccess(s, caller, pk).Success?
    requires user in s.users && !IsMember(s.members, pk, user)
    ensures AddMember(s, caller, pk, user, role).Success?
  {
  }

  /** Adding a member keeps every schema constraint. */
  lemma AddKeepsValid(s: Store, caller: UserId, pk: nat, user: UserId, role: Option<string>)
    requires Valid(s) && AddMember(s, caller, pk, user, role).Success?
    ensures Valid(AddMember(s, caller, pk, user, role).value)
  {
    var s' := AddMember(s, caller, pk, user, role).value;
    var t := s.members;
    var m := s'.members[|t|];
    assert s'.members == t + [m];
    assert forall i :: 0 <= i < |t| ==> (t[i].group, t[i].user) != (m.group, m.user);
    KeyedAppend(t, m, MemberId, s.nextId);
    AdvanceKeepsValid(s, s'.nextId, s'.clock);
    assert s' == s.(nextId := s'.nextId).(members := s'.members);
  }

  /** A second identical add is refused because the user is now a member. */
  lemma AddTwiceRefused(s: Store, caller: UserId, pk: nat, user: UserId, role: Option<string>)
    requires AddMember(s, caller, pk, user, role).Success?
    requires AdminAccess(AddMember(s, caller, pk, user, role).value, caller, pk).Success?
    ensures AddMember(AddMember(s, caller, pk, user, role).value, caller, pk, user, role)
      == Failure(AlreadyMember)
  {
    var s' := AddMember(s, caller, pk, user, role).value;
    assert s'.members[|s.members|].group == pk && s'.members[|s.members|].user == user;
    assert IsMember(s'.members, pk, user);
  }

  /** `GroupMemberView.delete`: validate the body (the role is checked though
      unused), find the group, require an admin caller, find the membership,
      refuse to remove the only admin, and otherwise delete that one row. */
  function RemoveMember(s: Store, caller: UserId, pk: nat, user: UserId, role: Option<string>)
    : (r: Result<Store, ApiError>)
    ensures RoleChoice(role).Failure? ==> r == Failure(InvalidRole)
    ensures RoleChoice(role).Success? && AdminAccess(s, caller, pk).Failure?
      ==> r == Failure(AdminAccess(s, caller, pk).error)
    ensures (RoleChoice(role).Success? && AdminAccess(s, caller, pk).Success?
             && !IsMember(s.members, pk, user)) ==> r == Failure(NotMember)
    ensures (RoleChoice(role).Success? && AdminAccess(s, caller, pk).Success?
             && FindMember(s.members, pk, user).Some?
             && s.members[FindMember(s.members, pk, user).value].role == Admin
             && AdminCount(s.members, pk) == 1) ==> r == Failure(LastAdmin)
    ensures (RoleChoice(role).Success? && AdminAccess(s, caller, pk).Success?
             && FindMember(s.members, pk, user).Some?
             && !(s.members[FindMember(s.members, pk, user).value].role == Admin
                  && AdminCount(s.members, pk) == 1)) ==> r.Success?
    ensures r == Failure(LastAdmin) ==>
      FindMember(s.members, pk, user).Some?
      && s.members[FindMember(s.members, pk, user).value].role == Admin
      && AdminCount(s.members, pk) == 1
    ensures r.Success? ==>
      && AdminAccess(s, caller, pk).Success?
      && FindMember(s.members, pk, user).Some?
      && r.value == s.(members := RemoveAt(s.members, FindMember(s.members, pk, user).value))
      && (s.members[FindMember(s.members, pk, user).value].role == Admin
          ==> AdminCount(s.members, pk) != 1)
  {
    var _ :- RoleChoice(role);
    var _ :- AdminAccess(s, caller, pk);
    match FindMember(s.members, pk, user)
    case None => Failure(NotMember)
    case Some(i) =>
      if s.members[i].role == Admin && AdminCount(s.members, pk) == 1 then Failure(LastAdmin)
      else Success(s.(members := RemoveAt(s.members, i)))
  }

  /** A row satisfying the filter makes the count positive. */
  lemma CountPositive<T>(t: seq<T>, p: T -> bool, i: nat)
    requires i < |t| && p(t[i])
    ensures Count(t, p) >= 1
  {
    assert t[i] in Filter(t, p);
  }

  /** The caller is an admin, so the group has one; removing a member never
      leaves the group without an admin. */
  lemma {:induction false} RemoveKeepsAnAdmin(s: Store, caller: UserId, pk: nat, user: UserId, role: Option<string>)
    requires RemoveMember(s, caller, pk, user, role).Success?
    ensures AdminCount(RemoveMember(s, caller, pk, user, role).value.members, pk) >= 1
  {
    var i := FindMember(s.members, pk, user).value;
    var p := (m: GroupMember) => m.group == pk && m.role == Admin;
    assert IsGroupAdmin(s.members, pk, caller);
    var k :| 0 <= k < |s.members| && s.members[k].group == pk && s.members[k].user == caller
             && s.members[k].role == Admin;
    CountPositive(s.members, p, k);
    CountRemoveAt(s.members, i, p);
  }

  /** Membership of `(g, u)` after deleting row `i`: some other row had it. */
  lemma MembershipAfterRemove(t: seq<GroupMember>, i: nat, g: nat, u: UserId)
    requires i < |t|
    ensures IsMember(RemoveAt(t, i), g, u) <==>
      exists j :: 0 <= j < |t| && j != i && t[j].group == g && t[j].user == u
  {
    RemoveAtOthers(t, i, (m: GroupMember) => m.group == g && m.user == u);
  }

  /** Removal deletes exactly the one membership: the user is no longer a
      member of the group and every other membership is kept. */
  lemma {:induction false} RemoveExactlyOne(s: Store, caller: UserId, pk: nat, user: UserId, role: Option<string>,
                         g: nat, u: UserId)
    requires Valid(s) && RemoveMember(s, caller, pk, user, role).Success?
    ensures !IsMember(RemoveMember(s, caller, pk, user, role).value.members, pk, user)
    ensures (g != pk || u != user) ==>
      (IsMember(RemoveMember(s, caller, pk, user, role).value.members, g, u) <==> IsMember(s.members, g, u))
  {
    var t := s.members;
    var i := FindMember(t, pk, user).value;
    assert RemoveMember(s, caller, pk, user, role).value.members == RemoveAt(t, i);
    assert t[i].group == pk && t[i].user == user;
    MembershipAfterRemove(t, i, pk, user);
    MembershipAfterRemove(t, i, g, u);
  }

  /** Removing a member keeps every schema constraint. */
  lemma RemoveKeepsValid(s: Store, caller: UserId, pk: nat, user: UserId, role: Option<string>)
    requires Valid(s) && RemoveMember(s, caller, pk, user, role).Success?
    ensures Valid(RemoveMember(s, caller, pk, user, role).value)
  {
    var t := s.members;
    var i := FindMember(t, pk, user).value;
    var t' := RemoveAt(t, i);
    KeyedRemoveAt(t, i, MemberId, s.nextId);
    forall a, b | 0 <= a < b < |t'|
      ensures (t'[a].group, t'[a].user) != (t'[b].group, t'[b].user)
    {
      var a' := if a < i then a else a + 1;
      var b' := if b < i then b else b + 1;
      assert t'[a] == t[a'] && t'[b] == t[b'];
    }
  }
}

=== FILE: json.dfy ===
/** Parsed JSON values as the consumer sees them after `json.loads`, with
    Python's truthiness and `dict.get`. */
module JsonValues {

  /** A JSON value. Numbers are integers; objects keep the last value given
      for a repeated key, as `json.loads` does. */
  datatype Json =
    | JNull
    | JBool(b: bool)
    | JNumber(n: int)
    | JString(s: string)
    | JArray(items: seq<Json>)
    | JObject(fields: map<string, Json>)

  /** Python's `bool(value)` for the value `json.loads` produces. */
  predicate Truthy(j: Json)
  {
    match j
    case JNull => false
    case JBool(b) => b
    case JNumber(n) => n != 0
    case JString(s) => |s| > 0
    case JArray(items) => |items| > 0
    case JObject(fields) => |fields| > 0
  }

  /** The falsy values are exactly Python's: `None`, `False`, zero and the
      empty string, list and dict. */
  lemma FalsyValues(j: Json)
    ensures !Truthy(j) <==>
      j == JNull || j == JBool(false) || j == JNumber(0) || j == JString("")
      || j == JArray([]) || j == JObject(map[])
  {
    if j.JObject? && |j.fields| == 0 {
      assert j.fields == map[];
    }
  }

  /** `obj.get(key, default)`. */
  function Get(obj: map<string, Json>, key: string, default: Json): (r: Json)
    ensures key in obj ==> r == obj[key]
    ensures key !in obj ==> r == default
  {
    if key in obj then obj[key] else default
  }

  /** `value['id']` succeeds only on an object that has the key; on a list, a
      string, a number, a boolean or `None` it raises. */
  predicate HasKey(j: Json, key: string)
  {
    j.JObject? && key in j.fields
  }
}

=== FILE: middleware.dfy ===
/** `TokenAuthMiddleware`: the WebSocket handshake reads a `token` parameter
    from the query string and resolves it to a user before the consumer runs.
    Decoding the token is a parameter of the model: a function from token
    text to the user id its payload names, or `None` when the token is
    invalid, expired or names no user id. */
module Middleware {
  import opened Wrappers
  import opened Tables
  import opened Text
  import opened Models

  /** The user a connection runs as. */
  datatype Principal = Anonymous | Authenticated(id: UserId, username: string)

  /** `dict(...)` refuses a segment that does not split into exactly two
      parts; the whole handshake fails with it. */
  datatype QueryError = MalformedSegment(segment: string)

  /** The segments of the query string that contain `=`, in order: every
      kept segment is an `&`-separated piece holding `=`, and every such piece
      is kept. `SegmentsAppend` gives the order. */
  function Segments(qs: string): (segs: seq<string>)
    ensures forall i :: 0 <= i < |segs| ==> Contains(segs[i], '=') && segs[i] in Split(qs, '&')
    ensures forall j :: 0 <= j < |Split(qs, '&')| && Contains(Split(qs, '&')[j], '=') ==>
      Split(qs, '&')[j] in segs
  {
    Filter(Split(qs, '&'), (seg: string) => Contains(seg, '='))
  }

  /** A piece appended to the query string comes after every earlier
      segment, and is kept exactly when it holds `=`. */
  lemma SegmentsAppend(qs: string, seg: string)
    requires Free(seg, '&')
    ensures Segments(qs + ['&'] + seg) == Segments(qs) + (if Contains(seg, '=') then [seg] else [])
  {
    PiecesAppend(qs, seg);
    FilterAppend(Split(qs, '&'), [seg], (x: string) => Contains(x, '='));
  }

  /** One step of `dict(...)`: the segment split on `=` must be a pair; its
      value replaces any earlier value of the key. */
  function AddPair(m: map<string, string>, seg: string): (r: Result<map<string, string>, QueryError>)
    ensures r.Failure? <==> Occurrences(seg, '=') != 1
    ensures r.Failure? ==> r.error == MalformedSegment(seg)
    ensures r.Success? ==>
      var i := Find(seg, '='); i < |seg| && r.value == m[seg[..i] := seg[i + 1..]]
  {
    SplitCount(seg, '=');
    var kv := Split(seg, '=');
    if |kv| != 2 then Failure(MalformedSegment(seg)) else Success(m[kv[0] := kv[1]])
  }

  /** `dict(...)` over the segments, left to right. */
  function BuildDict(segs: seq<string>, acc: map<string, string>): (r: Result<map<string, string>, QueryError>)
    ensures r.Success? ==> acc.Keys <= r.value.Keys
    ensures r.Failure? ==> r.error.segment in segs && Occurrences(r.error.segment, '=') != 1
    decreases |segs|
  {
    if |segs| == 0 then Success(acc)
    else
      match AddPair(acc, segs[0])
      case Failure(e) => Failure(e)
      case Success(m) => BuildDict(segs[1..], m)
  }

  /** The query-string parameters, as `__call__` builds them. */
  function ParseQuery(qs: string): (r: Result<map<string, string>, QueryError>)
    ensures r.Failure? ==>
      r.error.segment in Split(qs, '&') && Occurrences(r.error.segment, '=') >= 2
  {
    var r := BuildDict(Segments(qs), map[]);
    if r.Success? then r
    else
      OccurrencesZero(r.error.segment, '=');
      ContainsIsMembership(r.error.segment, '=');
      r
  }

  /** A segment that holds `=` splits into a pair exactly when it holds one `=`. */
  lemma AddPairFails(m: map<string, string>, seg: string)
    requires Contains(seg, '=')
    ensures AddPair(m, seg).Failure? <==> Occurrences(seg, '=') >= 2
  {
    SplitCount(seg, '=');
    OccurrencesZero(seg, '=');
  }

  /** `dict(...)` fails exactly when some segment holds more than one `=`. */
  lemma {:induction false} BuildDictFails(segs: seq<string>, acc: map<string, string>)
    requires forall i :: 0 <= i < |segs| ==> Contains(segs[i], '=')
    ensures BuildDict(segs, acc).Failure? <==>
      exists k :: 0 <= k < |segs| && Occurrences(segs[k], '=') >= 2
    decreases |segs|
  {
    if |segs| > 0 {
      AddPairFails(acc, segs[0]);
      if AddPair(acc, segs[0]).Success? {
        var rest := segs[1..];
        BuildDictFails(rest, AddPair(acc, segs[0]).value);
        assert BuildDict(segs, acc) == BuildDict(rest, AddPair(acc, segs[0]).value);
        if exists k :: 0 <= k < |segs| && Occurrences(segs[k], '=') >= 2 {
          var k :| 0 <= k < |segs| && Occurrences(segs[k], '=') >= 2;
          assert k > 0 && rest[k - 1] == segs[k];
        }
        if exists k :: 0 <= k < |rest| && Occurrences(rest[k], '=') >= 2 {
          var k :| 0 <= k < |rest| && Occurrences(rest[k], '=') >= 2;
          assert rest[k] == segs[k + 1];
        }
      } else {
        assert Occurrences(segs[0], '=') >= 2;
      }
    }
  }

  /** A piece with two or more `=` makes the handshake's parse fail. */
  lemma DoubleEqualsFails(qs: string, k: nat)
    requires k < |Split(qs, '&')| && Occurrences(Split(qs, '&')[k], '=') >= 2
    ensures ParseQuery(qs).Failure?
  {
    var pieces := Split(qs, '&');
    var segs := Segments(qs);
    OccurrencesZero(pieces[k], '=');
    ContainsIsMembership(pieces[k], '=');
    assert pieces[k] in segs;
    var j :| 0 <= j < |segs| && segs[j] == pieces[k];
    BuildDictFails(segs, map[]);
    assert Occurrences(segs[j], '=') >= 2;
  }

  /** Without such a piece the parse succeeds. */
  lemma SingleEqualsParses(qs: string)
    requires forall k :: 0 <= k < |Split(qs, '&')| ==> Occurrences(Split(qs, '&')[k], '=') < 2
    ensures ParseQuery(qs).Success?
  {
    var pieces := Split(qs, '&');
    var segs := Segments(qs);
    forall j | 0 <= j < |segs|
      ensures Occurrences(segs[j], '=') < 2
    {
      assert segs[j] in pieces;
    }
    BuildDictFails(segs, map[]);
  }

  /** The handshake's parse fails exactly when some `&`-separated piece of
      the query string holds two or more `=`. */
  lemma ParseFailsOnDoubleEquals(qs: string)
    ensures ParseQuery(qs).Failure? <==>
      exists k :: 0 <= k < |Split(qs, '&')| && Occurrences(Split(qs, '&')[k], '=') >= 2
  {
    if exists k :: 0 <= k < |Split(qs, '&')| && Occurrences(Split(qs, '&')[k], '=') >= 2 {
      var k :| 0 <= k < |Split(qs, '&')| && Occurrences(Split(qs, '&')[k], '=') >= 2;
      DoubleEqualsFails(qs, k);
    } else {
      SingleEqualsParses(qs);
    }
  }

  /** Running `dict(...)` over more segments continues from where it stopped. */
  lemma {:induction false} BuildDictAppend(a: seq<string>, seg: string, acc: map<string, string>)
    ensures BuildDict(a + [seg], acc) ==
      match BuildDict(a, acc)
      case Failure(e) => Failure(e)
      case Success(m) => AddPair(m, seg)
    decreases |a|
  {
    if |a| == 0 {
      assert a + [seg] == [seg];
    } else {
      assert (a + [seg])[1..] == a[1..] + [seg];
      if AddPair(acc, a[0]).Success? {
        BuildDictAppend(a[1..], seg, AddPair(acc, a[0]).value);
      }
    }
  }

  /** A text with neither separator. */
  predicate Plain(s: string)
  {
    Free(s, '&') && Free(s, '=')
  }

  /** `k=v` splits on `=` into exactly `k` and `v`. */
  lemma PairSplits(k: string, v: string)
    requires Plain(k) && Plain(v)
    ensures Split(k + ['='] + v, '=') == [k, v]
  {
    SplitAround(k, v, '=');
    SplitNoSeparator(k, '=');
    SplitNoSeparator(v, '=');
  }

  /** Appending `&seg` to a query string appends `seg` to its pieces. */
  lemma PiecesAppend(qs: string, seg: string)
    requires Free(seg, '&')
    ensures Split(qs + ['&'] + seg, '&') == Split(qs, '&') + [seg]
  {
    SplitAround(qs, seg, '&');
    SplitNoSeparator(seg, '&');
  }

  /** A segment without `=` is ignored, wherever the query string gains it. */
  lemma SegmentWithoutEqualsIgnored(qs: string, seg: string)
    requires Plain(seg)
    ensures ParseQuery(qs + ['&'] + seg) == ParseQuery(qs)
  {
    var p := (x: string) => Contains(x, '=');
    PiecesAppend(qs, seg);
    FilterAppend(Split(qs, '&'), [seg], p);
    assert !Contains(seg, '=');
    assert Segments(qs + ['&'] + seg) == Segments(qs);
  }

  /** A later `key=value` overrides an earlier value of the same key, and the
      value is taken verbatim: no decoding of any kind. */
  lemma LastWins(qs: string, k: string, v: string)
    requires Plain(k) && Plain(v) && ParseQuery(qs).Success?
    ensures ParseQuery(qs + ['&'] + (k + ['='] + v)) == Success(ParseQuery(qs).value[k := v])
  {
    var seg := k + ['='] + v;
    var p := (x: string) => Contains(x, '=');
    assert Free(seg, '&') by {
      forall i | 0 <= i < |seg| ensures seg[i] != '&' {
        if i < |k| { assert seg[i] == k[i]; } else if i > |k| { assert seg[i] == v[i - |k| - 1]; }
      }
    }
    assert seg[|k|] == '=';
    assert Contains(seg, '=');
    PiecesAppend(qs, seg);
    FilterAppend(Split(qs, '&'), [seg], p);
    assert Segments(qs + ['&'] + seg) == Segments(qs) + [seg];
    BuildDictAppend(Segments(qs), seg, map[]);
    PairSplits(k, v);
  }

  /** A lone `key=value` parses to exactly that parameter. */
  lemma SingleParameter(k: string, v: string)
    requires Plain(k) && Plain(v)
    ensures ParseQuery(k + ['='] + v) == Success(map[k := v])
  {
    var seg := k + ['='] + v;
    assert Free(seg, '&') by {
      forall i | 0 <= i < |seg| ensures seg[i] != '&' {
        if i < |k| { assert seg[i] == k[i]; } else if i > |k| { assert seg[i] == v[i - |k| - 1]; }
      }
    }
    SplitNoSeparator(seg, '&');
    assert seg[|k|] == '=';
    assert Contains(seg, '=');
    assert Segments(seg) == [seg];
    PairSplits(k, v);
    assert BuildDict([seg], map[]) == BuildDict([], map[k := v]);
  }

  /** `get_user`: the decoded user id must name a stored user; every failure
      along the way gives the anonymous user instead of an error. */
  function GetUser(token: string, decode: string -> Option<UserId>, users: map<UserId, string>)
    : (p: Principal)
    ensures p.Authenticated? <==> decode(token).Some? && decode(token).value in users
    ensures p.Authenticated? ==> p.id == decode(token).value && p.username == users[p.id]
  {
    match decode(token)
    case None => Anonymous
    case Some(id) => if id in users then Authenticated(id, users[id]) else Anonymous
  }

  /** The scope the inner application receives. */
  datatype Scope = Scope(queryString: string, user: Option<Principal>)

  /** `TokenAuthMiddleware.__call__`: parse the query string, then set
      `scope['user']` from a non-empty `token`, or to the anonymous user. */
  function Call(scope: Scope, decode: string -> Option<UserId>, users: map<UserId, string>)
    : (r: Result<Scope, QueryError>)
    ensures r.Failure? <==> ParseQuery(scope.queryString).Failure?
    ensures r.Success? ==> r.value.user.Some? && r.value.queryString == scope.queryString
    ensures r.Success? ==>
      var m := ParseQuery(scope.queryString).value;
      r.value.user == Some(if "token" in m && m["token"] != "" then GetUser(m["token"], decode, users)
                           else Anonymous)
  {
    var m :- ParseQuery(scope.queryString);
    var user := if "token" in m && m["token"] != "" then GetUser(m["token"], decode, users) else Anonymous;
    Success(scope.(user := Some(user)))
  }

  /** Without a non-empty `token` the connection is anonymous whatever the
      decoder would say: `get_user` is not consulted. */
  lemma NoTokenAnonymous(scope: Scope, d1: string -> Option<UserId>, d2: string -> Option<UserId>,
                         users: map<UserId, string>)
    requires ParseQuery(scope.queryString).Success?
    requires var m := ParseQuery(scope.queryString).value; "token" !in m || m["token"] == ""
    ensures Call(scope, d1, users) == Call(scope, d2, users)
    ensures Call(scope, d1, users) == Success(scope.(user := Some(Anonymous)))
  {
  }

  /** A token that does not decode, or names no stored user, gives an
      anonymous connection rather than a failed handshake. */
  lemma BadTokenAnonymous(scope: Scope, decode: string -> Option<UserId>, users: map<UserId, string>)
    requires ParseQuery(scope.queryString).Success?
    requires var m := ParseQuery(scope.queryString).value;
      "token" in m && (decode(m["token"]).None? || decode(m["token"]).value !in users)
    ensures Call(scope, decode, users) == Success(scope.(user := Some(Anonymous)))
  {
  }

  /** `?token=t` alone authenticates as the user `t` decodes to. */
  lemma TokenAuthenticates(t: string, decode: string -> Option<UserId>, users: map<UserId, string>)
    requires Plain(t) && t != []
    requires decode(t).Some? && decode(t).value in users
    ensures var id := decode(t).value;
      Call(Scope("token" + ['='] + t, None), decode, users)
      == Success(Scope("token" + ['='] + t, Some(Authenticated(id, users[id]))))
  {
    SingleParameter("token", t);
  }
}

=== FILE: models.dfy ===
/** The chat application's database: users, friendships, groups and their
    members, direct chats, direct and group messages, and reactions, with the
    constraints the schema declares and the defaults new rows receive.

    Every table is the sequence of its rows in insertion order. Identifiers
    come from one allocator `nextId`, and `clock` is an abstract clock that
    each "now" reading advances. */
module Models {
  import opened Wrappers
  import opened Tables
  import opened Text
  import opened JsonValues

  type UserId = int

  datatype Role = Admin | Member
  datatype FriendshipStatus = Pending | Accepted
  datatype MessageType = TextMessage | ImageMessage | FileMessage | AudioMessage
  datatype DeliveryStatus = Sent | Delivered | Seen

  /** A friend request or friendship between `userOne` and `userTwo`.
      `requester` is absent for requests made through the friendship list. */
  datatype Friendship = Friendship(
    id: nat, userOne: UserId, userTwo: UserId, requester: Option<UserId>,
    status: FriendshipStatus, createdAt: nat)

  datatype Group = Group(id: nat, name: string)

  datatype GroupMember = GroupMember(
    id: nat, group: nat, user: UserId, role: Role, addedBy: Option<UserId>, isMuted: bool)

  datatype DirectChat = DirectChat(
    id: nat, userOne: UserId, userTwo: UserId, createdAt: nat, lastMessageAt: nat)

  /** `text` is the value handed to the ORM; the socket path hands over
      whatever JSON value the frame carried. */
  datatype DirectMessage = DirectMessage(
    id: nat, chat: nat, sender: UserId, text: Json, messageType: MessageType,
    mediaUrl: string, deliveryStatus: DeliveryStatus, editedAt: Option<nat>,
    deletedForSender: bool, deletedForReceiver: bool, createdAt: nat)

  /** A group message has the same content kinds as a direct message and a
      single deletion flag; its sender becomes null if the user is deleted. */
  datatype GroupMessage = GroupMessage(
    id: nat, group: nat, sender: Option<UserId>, text: Json, messageType: MessageType,
    mediaUrl: string, editedAt: Option<nat>, isDeleted: bool, createdAt: nat)

  datatype Reaction = Reaction(id: nat, message: nat, user: UserId, reactionType: string)

  datatype Store = Store(
    users: map<UserId, string>,
    friendships: seq<Friendship>,
    groups: seq<Group>,
    members: seq<GroupMember>,
    chats: seq<DirectChat>,
    directMessages: seq<DirectMessage>,
    groupMessages: seq<GroupMessage>,
    directReactions: seq<Reaction>,
    groupReactions: seq<Reaction>,
    nextId: nat,
    clock: nat)

  /** The value `Friendship.Status` stores for each status. */
  function StatusName(st: FriendshipStatus): string
  {
    match st
    case Pending => "pending"
    case Accepted => "accepted"
  }

  /** The errors the REST views answer with. */
  datatype ApiError =
    | SelfFriendRequest | TargetUserNotFound | FriendshipExists
    | FriendshipNotFound | NotParticipant | InvalidStatus | AlreadyAccepted | OwnRequest
    | InvalidRole | GroupNotFound | NotGroupAdmin | UserToAddNotFound | AlreadyMember
    | NotMember | LastAdmin
    | UserNotFound | NotFriends
    | ChatNotFound | NotInChat | InvalidMessage
    | InvalidGroupBody

  /** The HTTP status each error is answered with: `ValidationError` is 400,
      `PermissionDenied` 403, a missing object 404. */
  function HttpStatus(e: ApiError): (code: int)
    ensures code == 400 || code == 403 || code == 404
    ensures code == 404 <==> e in {FriendshipNotFound, GroupNotFound, UserNotFound, ChatNotFound}
    ensures code == 403 <==> e in {NotParticipant, AlreadyAccepted, OwnRequest, NotGroupAdmin, NotFriends, NotInChat}
  {
    match e
    case FriendshipNotFound | GroupNotFound | UserNotFound | ChatNotFound => 404
    case NotParticipant | AlreadyAccepted | OwnRequest | NotGroupAdmin | NotFriends | NotInChat => 403
    case _ => 400
  }

  /** DRF's `CharField` on a string value: the value is trimmed as by
      `str.strip()`; a blank value is refused unless blanks are allowed; any
      NUL character is refused; and the trimmed value may not exceed the
      maximum length. */
  predicate CharFieldAccepts(v: string, allowBlank: bool, maxLength: Option<nat>)
  {
    if Strip(v) == "" then allowBlank
    else '\0' !in v && (maxLength.None? || |Strip(v)| <= maxLength.value)
  }

  /** The two ids in ascending order, as `sorted([a, b], key=id)`. */
  function SortedPair(a: UserId, b: UserId): (p: (UserId, UserId))
    ensures p.0 <= p.1
    ensures multiset{p.0, p.1} == multiset{a, b}
  {
    if a <= b then (a, b) else (b, a)
  }

  // Keys the tables are ordered by.
  function FriendshipId(f: Friendship): int { f.id }
  function GroupId(g: Group): int { g.id }
  function MemberId(m: GroupMember): int { m.id }
  function ChatId(c: DirectChat): int { c.id }
  function DirectMessageId(m: DirectMessage): int { m.id }
  function DirectMessageTime(m: DirectMessage): int { m.createdAt }
  function GroupMessageId(m: GroupMessage): int { m.id }
  function GroupMessageTime(m: GroupMessage): int { m.createdAt }
  function ReactionId(r: Reaction): int { r.id }

  /** Row ids are unique: they increase along the table and stay below the
      allocator. */
  predicate Keyed<T>(t: seq<T>, key: T -> int, next: nat)
  {
    Ascending(t, key) && Below(t, key, next)
  }

  /** `user_one_lt_user_two` and `unique_friendship`. */
  predicate FriendshipsValid(t: seq<Friendship>, next: nat)
  {
    && (forall i :: 0 <= i < |t| ==> t[i].userOne < t[i].userTwo)
    && (forall i, j :: 0 <= i < j < |t| ==>
          (t[i].userOne, t[i].userTwo) != (t[j].userOne, t[j].userTwo))
    && Keyed(t, FriendshipId, next)
  }

  /** `dm_user_one_lt_user_two` and `unique_direct_chat`. */
  predicate ChatsValid(t: seq<DirectChat>, next: nat)
  {
    && (forall i :: 0 <= i < |t| ==> t[i].userOne < t[i].userTwo)
    && (forall i, j :: 0 <= i < j < |t| ==>
          (t[i].userOne, t[i].userTwo) != (t[j].userOne, t[j].userTwo))
    && Keyed(t, ChatId, next)
  }

  /** `unique_together = ('group', 'user')`. */
  predicate MembersValid(t: seq<GroupMember>, next: nat)
  {
    && (forall i, j :: 0 <= i < j < |t| ==> (t[i].group, t[i].user) != (t[j].group, t[j].user))
    && Keyed(t, MemberId, next)
  }

  /** `unique_together = ('message', 'user', 'reaction_type')`. */
  predicate ReactionsValid(t: seq<Reaction>, next: nat)
  {
    && (forall i, j :: 0 <= i < j < |t| ==>
          (t[i].message, t[i].user, t[i].reactionType) != (t[j].message, t[j].user, t[j].reactionType))
    && Keyed(t, ReactionId, next)
  }

  /** Messages are stored in creation order: `created_at` increases along
      the table and lies in the past of the clock. */
  predicate DirectMessagesValid(t: seq<DirectMessage>, next: nat, clock: nat)
  {
    Keyed(t, DirectMessageId, next) && Keyed(t, DirectMessageTime, clock)
  }

  predicate GroupMessagesValid(t: seq<GroupMessage>, next: nat, clock: nat)
  {
    Keyed(t, GroupMessageId, next) && Keyed(t, GroupMessageTime, clock)
  }

  /** The store invariant: every constraint the schema declares. */
  predicate Valid(s: Store)
  {
    && FriendshipsValid(s.friendships, s.nextId)
    && Keyed(s.groups, GroupId, s.nextId)
    && MembersValid(s.members, s.nextId)
    && ChatsValid(s.chats, s.nextId)
    && DirectMessagesValid(s.directMessages, s.nextId, s.clock)
    && GroupMessagesValid(s.groupMessages, s.nextId, s.clock)
    && ReactionsValid(s.directReactions, s.nextId)
    && ReactionsValid(s.groupReactions, s.nextId)
  }

  // Lookups: the first row of a table with the given key.

  function FindFriendship(t: seq<Friendship>, id: nat): Option<nat>
  {
    IndexWhere(t, (f: Friendship) => f.id == id)
  }

  function FindPair(t: seq<Friendship>, one: UserId, two: UserId): Option<nat>
  {
    IndexWhere(t, (f: Friendship) => f.userOne == one && f.userTwo == two)
  }

  function FindAcceptedPair(t: seq<Friendship>, one: UserId, two: UserId): Option<nat>
  {
    IndexWhere(t, (f: Friendship) => f.userOne == one && f.userTwo == two && f.status == Accepted)
  }

  function FindGroup(t: seq<Group>, id: nat): Option<nat>
  {
    IndexWhere(t, (g: Group) => g.id == id)
  }

  function FindMember(t: seq<GroupMember>, group: nat, user: UserId): Option<nat>
  {
    IndexWhere(t, (m: GroupMember) => m.group == group && m.user == user)
  }

  function FindChat(t: seq<DirectChat>, id: nat): Option<nat>
  {
    IndexWhere(t, (c: DirectChat) => c.id == id)
  }

  function FindChatPair(t: seq<DirectChat>, one: UserId, two: UserId): Option<nat>
  {
    IndexWhere(t, (c: DirectChat) => c.userOne == one && c.userTwo == two)
  }

  /** Number of admins of a group. */
  function AdminCount(t: seq<GroupMember>, group: nat): nat
  {
    Count(t, (m: GroupMember) => m.group == group && m.role == Admin)
  }

  // New rows with the schema's defaults.

  /** A new friendship row starts pending. */
  function NewFriendship(id: nat, one: UserId, two: UserId, requester: Option<UserId>, now: nat): Friendship
  {
    Friendship(id, one, two, requester, Pending, now)
  }

  /** A new membership is not muted. */
  function NewMember(id: nat, group: nat, user: UserId, role: Role, addedBy: UserId): GroupMember
  {
    GroupMember(id, group, user, role, Some(addedBy), false)
  }

  /** A new direct message is delivered as `sent`, unedited, and deleted for
      neither side. */
  function NewDirectMessage(
    id: nat, chat: nat, sender: UserId, text: Json, kind: MessageType, mediaUrl: string, now: nat
  ): DirectMessage
  {
    DirectMessage(id, chat, sender, text, kind, mediaUrl, Sent, None, false, false, now)
  }

  /** A new group message is unedited and not deleted. */
  function NewGroupMessage(id: nat, group: nat, sender: UserId, text: Json, now: nat): GroupMessage
  {
    GroupMessage(id, group, Some(sender), text, TextMessage, "", None, false, now)
  }

  /** Row defaults: a friendship starts pending, a membership unmuted, a
      direct message as text that is sent and deleted for nobody, a group
      message as text that is not deleted. */
  lemma Defaults(id: nat, a: UserId, b: UserId, g: nat, text: Json, now: nat)
    ensures NewFriendship(id, a, b, None, now).status == Pending
    ensures !NewMember(id, g, a, Member, b).isMuted
    ensures var m := NewDirectMessage(id, g, a, text, TextMessage, "", now);
      m.messageType == TextMessage && m.deliveryStatus == Sent
      && !m.deletedForSender && !m.deletedForReceiver && m.editedAt == None
    ensures var m := NewGroupMessage(id, g, a, text, now);
      m.messageType == TextMessage && !m.isDeleted && m.sender == Some(a)
  {
  }

  /** Appending a row whose key is the allocator's next value keeps the
      table keyed, with the allocator advanced. */
  lemma KeyedAppend<T>(t: seq<T>, x: T, key: T -> int, next: nat)
    requires Keyed(t, key, next) && key(x) == next
    ensures Keyed(t + [x], key, next + 1)
  {
    AscendingAppend(t, x, key, next);
  }

  lemma KeyedRemoveAt<T>(t: seq<T>, i: nat, key: T -> int, next: nat)
    requires i < |t| && Keyed(t, key, next)
    ensures Keyed(RemoveAt(t, i), key, next)
  {
    AscendingRemoveAt(t, i, key, next);
  }

  lemma KeyedGrow<T>(t: seq<T>, key: T -> int, next: nat, next': nat)
    requires Keyed(t, key, next) && next <= next'
    ensures Keyed(t, key, next')
  {
  }

  /** Advancing the allocator and the clock keeps every constraint. */
  lemma AdvanceKeepsValid(s: Store, next: nat, clock: nat)
    requires Valid(s) && s.nextId <= next && s.clock <= clock
    ensures Valid(s.(nextId := next, clock := clock))
  {
  }

  /** A row with a given id is the one the lookup finds. */
  lemma FindFriendshipUnique(t: seq<Friendship>, next: nat, i: nat)
    requires FriendshipsValid(t, next) && i < |t|
    ensures FindFriendship(t, t[i].id) == Some(i)
  {
  }

  /** Under the uniqueness constraint, the membership row of a (group, user)
      pair is the one the lookup finds. */
  lemma FindMemberUnique(t: seq<GroupMember>, next: nat, i: nat)
    requires MembersValid(t, next) && i < |t|
    ensures FindMember(t, t[i].group, t[i].user) == Some(i)
  {
  }

  /** Chat tables with the same ids, row by row, answer every id lookup the
      same way. */
  lemma {:induction false} ChatIdsKept(a: seq<DirectChat>, b: seq<DirectChat>)
    requires |a| == |b| && forall j :: 0 <= j < |a| ==> a[j].id == b[j].id
    ensures forall id :: FindChat(a, id) == FindChat(b, id)
    decreases |a|
  {
    if |a| > 0 {
      ChatIdsKept(a[1..], b[1..]);
    }
  }

  /** Stamping a chat's `last_message_at` keeps the chat table valid and
      every chat lookup where it was. */
  lemma TouchChat(c: seq<DirectChat>, i: nat, at: nat, next: nat)
    requires i < |c| && ChatsValid(c, next)
    ensures ChatsValid(c[i := c[i].(lastMessageAt := at)], next)
    ensures forall id :: FindChat(c[i := c[i].(lastMessageAt := at)], id) == FindChat(c, id)
  {
    var c' := c[i := c[i].(lastMessageAt := at)];
    assert forall j :: 0 <= j < |c| ==> c'[j].id == c[j].id && ChatId(c'[j]) == ChatId(c[j]);
    ChatIdsKept(c, c');
  }
}

=== FILE: permissions.dfy ===
/** The `IsGroupAdmin` object permission: the caller may manage a group only
    through an admin membership row of that group. */
module Permissions {
  import opened Wrappers
  import opened Models

  /** The caller's membership row in the group decides: no row denies, a row
      with role admin allows, a row with role member denies. */
  function IsGroupAdmin(members: seq<GroupMember>, group: nat, user: UserId): (allowed: bool)
    ensures allowed ==> (exists i :: 0 <= i < |members| && members[i].group == group
                                     && members[i].user == user && members[i].role == Admin)
    ensures (forall i :: 0 <= i < |members| ==> members[i].group != group || members[i].user != user)
      ==> !allowed
  {
    match FindMember(members, group, user)
    case None => false
    case Some(i) => members[i].role == Admin
  }

  /** Under the uniqueness of (group, user) rows, the role on the one row of
      the pair is exactly what decides: admin allows and member denies. */
  lemma RoleDecides(members: seq<GroupMember>, next: nat, i: nat)
    requires MembersValid(members, next) && i < |members|
    ensures IsGroupAdmin(members, members[i].group, members[i].user) <==> members[i].role == Admin
  {
    FindMemberUnique(members, next, i);
  }

  /** An admin row makes its user an admin of its group. */
  lemma AdminAllowed(members: seq<GroupMember>, next: nat, i: nat)
    requires MembersValid(members, next) && i < |members| && members[i].role == Admin
    ensures IsGroupAdmin(members, members[i].group, members[i].user)
  {
    RoleDecides(members, next, i);
  }

  /** A member row denies its user. */
  lemma MemberDenied(members: seq<GroupMember>, next: nat, i: nat)
    requires MembersValid(members, next) && i < |members| && members[i].role == Member
    ensures !IsGroupAdmin(members, members[i].group, members[i].user)
  {
    RoleDecides(members, next, i);
  }

  /** The decision reads only the caller's own row: a row added for another
      (group, user) pair does not change it. */
  lemma {:induction false} OtherRowIrrelevant(members: seq<GroupMember>, m: GroupMember, group: nat, user: UserId)
    requires m.group != group || m.user != user
    ensures IsGroupAdmin(members + [m], group, user) == IsGroupAdmin(members, group, user)
    decreases |members|
  {
    if |members| > 0 {
      assert (members + [m])[1..] == members[1..] + [m];
      OtherRowIrrelevant(members[1..], m, group, user);
    }
  }
}

=== FILE: pyint.dfy ===
/** Python's `int(s)` on a string in base 10, and `str(n)` for its inverse.
    `int()` strips surrounding whitespace, takes an optional sign, and then
    needs at least one digit; single underscores may separate digits. Only
    the ASCII digits are digits here. */
module PyInt {
  import opened Wrappers
  import opened Text

  predicate IsDigit(c: char)
  {
    '0' <= c <= '9'
  }

  function DigitValue(c: char): nat
    requires IsDigit(c)
  {
    (c as int) - ('0' as int)
  }

  function DigitChar(n: nat): (c: char)
    requires n < 10
    ensures IsDigit(c) && DigitValue(c) == n
  {
    (('0' as int) + n) as char
  }

  predicate IsRunChar(c: char)
  {
    IsDigit(c) || c == '_'
  }

  /** A run of ASCII digits in which every underscore sits between two digits. */
  predicate IsDigitRun(d: string)
  {
    && |d| > 0
    && (forall i :: 0 <= i < |d| ==> IsRunChar(d[i]))
    && (forall i :: 0 <= i < |d| && d[i] == '_' ==>
          0 < i < |d| - 1 && IsDigit(d[i - 1]) && IsDigit(d[i + 1]))
  }

  /** The value of a digit run, underscores skipped. */
  function RunValue(d: string): nat
    requires forall i :: 0 <= i < |d| ==> IsRunChar(d[i])
    decreases |d|
  {
    if |d| == 0 then 0
    else
      var last := d[|d| - 1];
      assert IsRunChar(last);
      if last == '_' then RunValue(d[..|d| - 1])
      else RunValue(d[..|d| - 1]) * 10 + DigitValue(last)
  }

  /** The whitespace `int()` skips around the number. It first turns every
      whitespace character from U+007F up into a space and keeps the rest of
      ASCII as it is, and then skips only tab to carriage return and space:
      the separators U+001C to U+001F, which `str.strip()` removes, are not
      skipped. */
  predicate IntSpace(c: char)
  {
    ('\t' <= c <= '\r') || c == ' ' || (c >= '\U{7F}' && IsSpace(c))
  }

  /** `int(s)`, with `None` for the `ValueError` it raises. A number always
      ends in a digit, and starts with a digit or a sign. */
  function ParseInt(s: string): (r: Option<int>)
    ensures r.Some? ==>
      var t := StripBy(s, IntSpace);
      |t| > 0 && IsDigit(t[|t| - 1]) && (IsDigit(t[0]) || t[0] == '+' || t[0] == '-')
  {
    var t := StripBy(s, IntSpace);
    var r := ParseStripped(t);
    if r.Some? then
      if |t| > 0 && (t[0] == '+' || t[0] == '-') then
        assert t[1..][|t[1..]| - 1] == t[|t| - 1];
        r
      else r
    else r
  }

  /** `int()` once the surrounding whitespace is gone: a sign, then a digit run. */
  function ParseStripped(t: string): (r: Option<int>)
  {
    if |t| > 0 && (t[0] == '+' || t[0] == '-') then
      if IsDigitRun(t[1..]) then
        var v: int := RunValue(t[1..]);
        Some(if t[0] == '-' then -v else v)
      else None
    else if IsDigitRun(t) then Some(RunValue(t))
    else None
  }

  /** Decimal digits of a natural number, most significant first. */
  function NatDigits(n: nat): (d: string)
    decreases n
  {
    if n < 10 then [DigitChar(n)] else NatDigits(n / 10) + [DigitChar(n % 10)]
  }

  /** `str(n)`. */
  function ToDecimal(n: int): string
  {
    if n < 0 then "-" + NatDigits(-n) else NatDigits(n)
  }

  lemma {:induction false} NatDigitsRun(n: nat)
    ensures |NatDigits(n)| > 0
    ensures forall i :: 0 <= i < |NatDigits(n)| ==> IsDigit(NatDigits(n)[i])
    ensures forall i :: 0 <= i < |NatDigits(n)| ==> IsRunChar(NatDigits(n)[i])
    ensures RunValue(NatDigits(n)) == n
    decreases n
  {
    if n >= 10 {
      NatDigitsRun(n / 10);
      var d := NatDigits(n);
      assert d[..|d| - 1] == NatDigits(n / 10);
    }
  }

  lemma NatDigitsParse(m: nat)
    ensures ParseStripped(NatDigits(m)) == Some(m as int)
  {
    NatDigitsRun(m);
    assert IsDigitRun(NatDigits(m));
  }

  lemma NegativeDigitsParse(m: nat)
    ensures ParseStripped("-" + NatDigits(m)) == Some(-(m as int))
  {
    NatDigitsRun(m);
    var d := NatDigits(m);
    assert IsDigitRun(d);
    assert ("-" + d)[1..] == d;
  }

  /** `str(n)` neither starts nor ends with whitespace. */
  lemma ToDecimalUnpadded(n: int)
    ensures StripBy(ToDecimal(n), IntSpace) == ToDecimal(n)
  {
    var m: nat := if n < 0 then -n else n;
    NatDigitsRun(m);
    var d := NatDigits(m);
    assert IsDigit(d[0]) && IsDigit(d[|d| - 1]);
    if n < 0 {
      assert ToDecimal(n)[|ToDecimal(n)| - 1] == d[|d| - 1];
    }
    StripNoEdgeSpaces(ToDecimal(n), IntSpace);
  }

  /** `int(str(n)) == n` for every integer. */
  lemma ParseIntRoundTrip(n: int)
    ensures ParseInt(ToDecimal(n)) == Some(n)
  {
    ToDecimalUnpadded(n);
    if n < 0 {
      NegativeDigitsParse(-n);
    } else {
      NatDigitsParse(n);
    }
  }

  /** A character below U+0660 that is not a digit, an underscore or a sign,
      left inside the text once the surrounding whitespace is gone, makes
      `int()` raise. (From U+0660 on lie the decimal digits of other
      scripts, which `int()` also reads.) */
  lemma ParseIntRejects(s: string, k: nat)
    requires k < |StripBy(s, IntSpace)|
    requires var c := StripBy(s, IntSpace)[k];
      c < '\U{0660}' && !IsDigit(c) && c != '_' && c != '+' && c != '-'
    ensures ParseInt(s) == None
  {
    var t := StripBy(s, IntSpace);
    if |t| > 0 && (t[0] == '+' || t[0] == '-') {
      assert t[1..][k - 1] == t[k];
    }
  }

  /** `k` zero digits. */
  function Zeros(k: nat): (z: string)
    ensures |z| == k
  {
    if k == 0 then "" else "0" + Zeros(k - 1)
  }

  /** A leading zero does not change the value of a digit run. */
  lemma {:induction false} RunValueLeadingZero(d: string)
    requires forall i :: 0 <= i < |d| ==> IsRunChar(d[i])
    ensures RunValue("0" + d) == RunValue(d)
    decreases |d|
  {
    var e := "0" + d;
    if |d| == 0 {
      assert e[..0] == [];
    } else {
      assert e[..|e| - 1] == "0" + d[..|d| - 1];
      assert e[|e| - 1] == d[|d| - 1];
      RunValueLeadingZero(d[..|d| - 1]);
    }
  }

  /** Zeros in front of digits keep them a digit run of the same value. */
  lemma {:induction false} ZerosRun(k: nat, d: string)
    requires |d| > 0 && forall i :: 0 <= i < |d| ==> IsDigit(d[i])
    ensures forall i :: 0 <= i < |Zeros(k) + d| ==> IsDigit((Zeros(k) + d)[i])
    ensures RunValue(Zeros(k) + d) == RunValue(d)
    decreases k
  {
    if k > 0 {
      ZerosRun(k - 1, d);
      var e := Zeros(k - 1) + d;
      assert Zeros(k) + d == "0" + e;
      forall i | 0 <= i < |"0" + e| ensures IsDigit(("0" + e)[i]) {
        if i > 0 { assert ("0" + e)[i] == e[i - 1]; }
      }
      RunValueLeadingZero(e);
    } else {
      assert Zeros(k) + d == d;
    }
  }

  /** Digits alone form a digit run. */
  lemma DigitsAreRun(s: string)
    requires |s| > 0 && forall i :: 0 <= i < |s| ==> IsDigit(s[i])
    ensures IsDigitRun(s)
  {
    assert forall i :: 0 <= i < |s| ==> IsRunChar(s[i]) && s[i] != '_';
  }

  /** An unsigned digit run parses to its value. */
  lemma UnsignedParse(s: string)
    requires IsDigitRun(s) && IsDigit(s[0])
    ensures ParseStripped(s) == Some(RunValue(s) as int)
  {
  }

  /** A non-empty string of digits parses to its value. */
  lemma {:induction false} DigitsParse(s: string)
    requires |s| > 0 && forall i :: 0 <= i < |s| ==> IsDigit(s[i])
    ensures ParseInt(s) == Some(RunValue(s) as int)
  {
    assert IsDigit(s[0]) && IsDigit(s[|s| - 1]);
    StripNoEdgeSpaces(s, IntSpace);
    DigitsAreRun(s);
    UnsignedParse(s);
  }

  /** `int()` ignores leading zeros: `int("007") == int("7") == 7`. */
  lemma {:induction false} LeadingZeros(k: nat, n: nat)
    ensures ParseInt(Zeros(k) + ToDecimal(n)) == Some(n as int)
  {
    var d := NatDigits(n);
    assert ToDecimal(n) == d;
    NatDigitsRun(n);
    ZerosRun(k, d);
    DigitsParse(Zeros(k) + d);
  }
}

=== FILE: tables.dfy ===
/** Database tables as sequences of rows in insertion order, and the few
    queries the views run on them: the first row matching a filter, all rows
    matching a filter, how many rows match, and deleting one row. */
module Tables {
  import opened Wrappers

  /** Position of the first row satisfying `p` (a `.filter(...).first()`). */
  function IndexWhere<T>(t: seq<T>, p: T -> bool): (r: Option<nat>)
    ensures r.Some? ==> r.value < |t| && p(t[r.value])
    ensures r.Some? ==> forall j :: 0 <= j < r.value ==> !p(t[j])
    ensures r.None? <==> forall j :: 0 <= j < |t| ==> !p(t[j])
    decreases |t|
  {
    if |t| == 0 then None
    else if p(t[0]) then Some(0)
    else match IndexWhere(t[1..], p)
      case None => None
      case Some(k) => Some(k + 1)
  }

  /** The rows satisfying `p`, in table order (a `.filter(...)` query). */
  function Filter<T>(t: seq<T>, p: T -> bool): (r: seq<T>)
    ensures |r| <= |t|
    ensures forall i :: 0 <= i < |r| ==> p(r[i]) && r[i] in t
    ensures forall j :: 0 <= j < |t| && p(t[j]) ==> t[j] in r
    decreases |t|
  {
    if |t| == 0 then []
    else if p(t[0]) then [t[0]] + Filter(t[1..], p)
    else Filter(t[1..], p)
  }

  /** Number of rows satisfying `p` (a `.filter(...).count()`). */
  function Count<T>(t: seq<T>, p: T -> bool): nat
  {
    |Filter(t, p)|
  }

  /** The table without its row at position `i` (a `.delete()` on that row). */
  function RemoveAt<T>(t: seq<T>, i: nat): (r: seq<T>)
    requires i < |t|
    ensures |r| == |t| - 1
    ensures forall j :: 0 <= j < i ==> r[j] == t[j]
    ensures forall j :: i <= j < |r| ==> r[j] == t[j + 1]
  {
    t[..i] + t[i + 1..]
  }

  /** Keys strictly increase along the table. */
  predicate Ascending<T>(t: seq<T>, key: T -> int)
  {
    forall i, j :: 0 <= i < j < |t| ==> key(t[i]) < key(t[j])
  }

  /** Every key is below `bound`. */
  predicate Below<T>(t: seq<T>, key: T -> int, bound: int)
  {
    forall i :: 0 <= i < |t| ==> key(t[i]) < bound
  }

  lemma {:induction false} FilterAppend<T>(a: seq<T>, b: seq<T>, p: T -> bool)
    ensures Filter(a + b, p) == Filter(a, p) + Filter(b, p)
    decreases |a|
  {
    if |a| == 0 {
      assert a + b == b;
    } else {
      assert (a + b)[1..] == a[1..] + b;
      FilterAppend(a[1..], b, p);
    }
  }

  /** Deleting a row lowers the count of matching rows by one exactly when
      the deleted row matched. */
  lemma CountRemoveAt<T>(t: seq<T>, i: nat, p: T -> bool)
    requires i < |t|
    ensures Count(RemoveAt(t, i), p) == Count(t, p) - (if p(t[i]) then 1 else 0)
  {
    assert t == t[..i] + ([t[i]] + t[i + 1..]);
    FilterAppend(t[..i], [t[i]] + t[i + 1..], p);
    FilterAppend([t[i]], t[i + 1..], p);
    FilterAppend(t[..i], t[i + 1..], p);
  }

  /** After deleting row `i`, a row satisfying `p` is left exactly when some
      other row satisfied it. */
  lemma RemoveAtOthers<T>(t: seq<T>, i: nat, p: T -> bool)
    requires i < |t|
    ensures (exists j :: 0 <= j < |RemoveAt(t, i)| && p(RemoveAt(t, i)[j]))
        <==> (exists j :: 0 <= j < |t| && j != i && p(t[j]))
  {
    var r := RemoveAt(t, i);
    if exists j :: 0 <= j < |r| && p(r[j]) {
      var j :| 0 <= j < |r| && p(r[j]);
      var j' := if j < i then j else j + 1;
      assert r[j] == t[j'] && j' != i;
    }
    if exists j :: 0 <= j < |t| && j != i && p(t[j]) {
      var j :| 0 <= j < |t| && j != i && p(t[j]);
      var j' := if j < i then j else j - 1;
      assert r[j'] == t[j];
    }
  }

  /** Every key is above `bound`. */
  predicate Above<T>(t: seq<T>, key: T -> int, bound: int)
  {
    forall i :: 0 <= i < |t| ==> bound < key(t[i])
  }

  lemma {:induction false} FilterAbove<T>(t: seq<T>, p: T -> bool, key: T -> int, bound: int)
    requires Above(t, key, bound)
    ensures Above(Filter(t, p), key, bound)
    decreases |t|
  {
    if |t| > 0 {
      FilterAbove(t[1..], p, key, bound);
    }
  }

  /** Filtering keeps the table's order, so a table sorted by a key stays sorted. */
  lemma {:induction false} FilterAscending<T>(t: seq<T>, p: T -> bool, key: T -> int)
    requires Ascending(t, key)
    ensures Ascending(Filter(t, p), key)
    decreases |t|
  {
    if |t| > 0 {
      var rest := Filter(t[1..], p);
      FilterAscending(t[1..], p, key);
      assert Above(t[1..], key, key(t[0]));
      FilterAbove(t[1..], p, key, key(t[0]));
      if p(t[0]) {
        var r := [t[0]] + rest;
        forall i, j | 0 <= i < j < |r|
          ensures key(r[i]) < key(r[j])
        {
          assert r[j] == rest[j - 1];
          if i > 0 {
            assert r[i] == rest[i - 1];
          }
        }
      }
    }
  }

  lemma AscendingRemoveAt<T>(t: seq<T>, i: nat, key: T -> int, bound: int)
    requires i < |t| && Ascending(t, key) && Below(t, key, bound)
    ensures Ascending(RemoveAt(t, i), key) && Below(RemoveAt(t, i), key, bound)
  {
    var r := RemoveAt(t, i);
    forall a, b | 0 <= a < b < |r|
      ensures key(r[a]) < key(r[b])
    {
      var a' := if a < i then a else a + 1;
      var b' := if b < i then b else b + 1;
      assert r[a] == t[a'] && r[b] == t[b'];
    }
  }

  lemma AscendingAppend<T>(t: seq<T>, x: T, key: T -> int, bound: int)
    requires Ascending(t, key) && Below(t, key, bound) && bound <= key(x)
    ensures Ascending(t + [x], key) && Below(t + [x], key, key(x) + 1)
  {
  }
}

=== FILE: text.dfy ===
/** Python string operations the core relies on: `str.split(sep)` with a
    one-character separator, its inverse `sep.join(parts)`, and `str.strip()`. */
module Text {

  /** Number of occurrences of `c` in `s`. */
  function Occurrences(s: string, c: char): nat
  {
    if |s| == 0 then 0 else (if s[0] == c then 1 else 0) + Occurrences(s[1..], c)
  }

  lemma {:induction false} OccurrencesAppend(a: string, b: string, c: char)
    ensures Occurrences(a + b, c) == Occurrences(a, c) + Occurrences(b, c)
    decreases |a|
  {
    if |a| == 0 {
      assert a + b == b;
    } else {
      assert (a + b)[1..] == a[1..] + b;
      OccurrencesAppend(a[1..], b, c);
    }
  }

  /** `c` does not occur in `s`. */
  predicate Free(s: string, c: char)
  {
    forall k :: 0 <= k < |s| ==> s[k] != c
  }

  lemma {:induction false} OccurrencesZero(s: string, c: char)
    ensures Occurrences(s, c) == 0 <==> Free(s, c)
    decreases |s|
  {
    if |s| > 0 {
      OccurrencesZero(s[1..], c);
      assert forall k :: 1 <= k < |s| ==> s[k] == s[1..][k - 1];
    }
  }

  /** Position of the first `c` in `s`, or `|s|` when there is none
      (`str.find`, with `|s|` in place of -1). */
  function Find(s: string, c: char): (i: nat)
    ensures i <= |s|
    ensures i < |s| ==> s[i] == c
    ensures forall k :: 0 <= k < i ==> s[k] != c
    decreases |s|
  {
    if |s| == 0 || s[0] == c then 0 else Find(s[1..], c) + 1
  }

  /** Python's `c in s` for a one-character `c`. */
  predicate Contains(s: string, c: char)
  {
    Find(s, c) < |s|
  }

  lemma ContainsIsMembership(s: string, c: char)
    ensures Contains(s, c) <==> c in s
    ensures !Contains(s, c) <==> Free(s, c)
  {
  }

  /** `s.split(sep)`: the pieces between separators, at least one
      ("".split("&") is [""]). `SplitPieces` says no piece contains the
      separator and `SplitCount` that there is one more piece than there are
      separators. */
  function Split(s: string, sep: char): (parts: seq<string>)
    ensures |parts| >= 1
    decreases |s|
  {
    var i := Find(s, sep);
    if i == |s| then [s] else [s[..i]] + Split(s[i + 1..], sep)
  }

  lemma {:induction false} SplitPieces(s: string, sep: char)
    ensures forall k :: 0 <= k < |Split(s, sep)| ==> Free(Split(s, sep)[k], sep)
    decreases |s|
  {
    var i := Find(s, sep);
    if i < |s| {
      SplitPieces(s[i + 1..], sep);
    }
  }

  lemma {:induction false} SplitCount(s: string, sep: char)
    ensures |Split(s, sep)| == Occurrences(s, sep) + 1
    decreases |s|
  {
    var i := Find(s, sep);
    if i == |s| {
      OccurrencesZero(s, sep);
    } else {
      SplitCount(s[i + 1..], sep);
      assert s == s[..i] + ([sep] + s[i + 1..]);
      OccurrencesAppend(s[..i], [sep] + s[i + 1..], sep);
      OccurrencesAppend([sep], s[i + 1..], sep);
      OccurrencesZero(s[..i], sep);
    }
  }

  /** `sep.join(parts)`. */
  function Join(parts: seq<string>, sep: char): string
    requires |parts| >= 1
  {
    if |parts| == 1 then parts[0] else parts[0] + [sep] + Join(parts[1..], sep)
  }

  /** Splitting and joining on the same separator gives the string back. */
  lemma {:induction false} JoinSplit(s: string, sep: char)
    ensures Join(Split(s, sep), sep) == s
    decreases |s|
  {
    var i := Find(s, sep);
    if i < |s| {
      var rest := Split(s[i + 1..], sep);
      JoinSplit(s[i + 1..], sep);
      assert Split(s, sep) == [s[..i]] + rest;
      assert ([s[..i]] + rest)[1..] == rest;
      assert Join(Split(s, sep), sep) == s[..i] + [sep] + Join(rest, sep);
      assert s == s[..i] + [sep] + s[i + 1..];
    }
  }

  /** A string without the separator is a single piece. */
  lemma SplitNoSeparator(s: string, sep: char)
    requires Free(s, sep)
    ensures Split(s, sep) == [s]
  {
  }

  /** The first separator at position `i` ends the first piece. */
  lemma SplitAt(s: string, i: nat, sep: char)
    requires i < |s| && s[i] == sep
    requires forall k :: 0 <= k < i ==> s[k] != sep
    ensures Split(s, sep) == [s[..i]] + Split(s[i + 1..], sep)
  {
    assert Find(s, sep) == i;
  }

  /** A separator between `a` and `b` cuts the pieces of `a` from those of `b`. */
  lemma {:induction false} SplitAround(a: string, b: string, sep: char)
    ensures Split(a + [sep] + b, sep) == Split(a, sep) + Split(b, sep)
    decreases |a|
  {
    var s := a + [sep] + b;
    var i := Find(a, sep);
    assert forall k :: 0 <= k < i ==> s[k] == a[k];
    if i == |a| {
      assert s[..|a|] == a && s[|a| + 1..] == b;
      SplitAt(s, |a|, sep);
    } else {
      assert s[..i] == a[..i];
      assert s[i + 1..] == a[i + 1..] + [sep] + b;
      SplitAt(s, i, sep);
      SplitAround(a[i + 1..], b, sep);
    }
  }

  /** Joining pieces that do not contain the separator and splitting again
      gives the pieces back. */
  lemma {:induction false} SplitJoin(parts: seq<string>, sep: char)
    requires |parts| >= 1
    requires forall i :: 0 <= i < |parts| ==> Free(parts[i], sep)
    ensures Split(Join(parts, sep), sep) == parts
    decreases |parts|
  {
    if |parts| > 1 {
      var rest := parts[1..];
      var tail := Join(rest, sep);
      assert Join(parts, sep) == parts[0] + [sep] + tail;
      assert forall i :: 0 <= i < |rest| ==> Free(rest[i], sep) by {
        forall i | 0 <= i < |rest| ensures Free(rest[i], sep) { assert rest[i] == parts[i + 1]; }
      }
      SplitJoin(rest, sep);
      SplitAround(parts[0], tail, sep);
      SplitNoSeparator(parts[0], sep);
      assert [parts[0]] + rest == parts;
    }
  }

  /** The characters Python's `str.isspace()` accepts, which `str.strip()`
      removes: the ASCII controls tab to carriage return, the separators
      U+001C to U+001F, space, U+0085, U+00A0, and the Unicode spaces and
      line and paragraph separators above them. */
  predicate IsSpace(c: char)
  {
    || ('\t' <= c <= '\r') || ('\U{1C}' <= c <= ' ') || c == '\U{85}' || c == '\U{A0}'
    || c == '\U{1680}' || ('\U{2000}' <= c <= '\U{200A}') || c == '\U{2028}' || c == '\U{2029}'
    || c == '\U{202F}' || c == '\U{205F}' || c == '\U{3000}'
  }

  /** The suffix of `s` after its leading characters of class `sp`
      (`s.lstrip()` when `sp` is `IsSpace`). */
  function TrimStart(s: string, sp: char -> bool): (r: string)
    ensures |r| <= |s| && r == s[|s| - |r|..]
    ensures r == [] || !sp(r[0])
    ensures forall i :: 0 <= i < |s| - |r| ==> sp(s[i])
    decreases |s|
  {
    if |s| > 0 && sp(s[0]) then TrimStart(s[1..], sp) else s
  }

  /** The prefix of `s` before its trailing characters of class `sp`
      (`s.rstrip()` when `sp` is `IsSpace`). */
  function TrimEnd(s: string, sp: char -> bool): (r: string)
    ensures |r| <= |s| && r == s[..|r|]
    ensures r == [] || !sp(r[|r| - 1])
    ensures forall i :: |r| <= i < |s| ==> sp(s[i])
    decreases |s|
  {
    if |s| > 0 && sp(s[|s| - 1]) then TrimEnd(s[..|s| - 1], sp) else s
  }

  /** Both ends of `s` trimmed of the class `sp`: neither end of the result
      is in the class. */
  function StripBy(s: string, sp: char -> bool): (r: string)
    ensures |r| <= |s|
    ensures r == [] || (!sp(r[0]) && !sp(r[|r| - 1]))
  {
    var t := TrimStart(s, sp);
    var r := TrimEnd(t, sp);
    assert r == [] || r[0] == t[0];
    r
  }

  /** `s.strip()`. */
  function Strip(s: string): (r: string)
    ensures |r| <= |s|
    ensures r == [] || (!IsSpace(r[0]) && !IsSpace(r[|r| - 1]))
  {
    StripBy(s, IsSpace)
  }

  /** A string that neither starts nor ends in the class is its own strip. */
  lemma {:induction false} StripNoEdgeSpaces(s: string, sp: char -> bool)
    requires s == [] || (!sp(s[0]) && !sp(s[|s| - 1]))
    ensures StripBy(s, sp) == s
  {
  }

  /** Stripping removes characters of the class only: what remains is the
      slice of `s` after its leading run, and everything cut away is in the
      class. */
  lemma {:induction false} StripShape(s: string, sp: char -> bool)
    ensures var i := |s| - |TrimStart(s, sp)|;
      && i + |StripBy(s, sp)| <= |s| && StripBy(s, sp) == s[i..i + |StripBy(s, sp)|]
      && (forall k :: 0 <= k < i ==> sp(s[k]))
      && (forall k :: i + |StripBy(s, sp)| <= k < |s| ==> sp(s[k]))
  {
    var t := TrimStart(s, sp);
    var i := |s| - |t|;
    assert t == s[i..];
    TrimEndOfSuffix(s, i, sp);
    assert TrimEnd(t, sp) == StripBy(s, sp);
  }

  /** Trimming the end of a suffix of `s` leaves a slice of `s`, and what it
      cut away is in the class. */
  lemma {:induction false} TrimEndOfSuffix(s: string, i: nat, sp: char -> bool)
    requires i <= |s|
    ensures var r := TrimEnd(s[i..], sp);
      && i + |r| <= |s| && r == s[i..i + |r|]
      && forall k :: i + |r| <= k < |s| ==> sp(s[k])
  {
    var t := s[i..];
    var r := TrimEnd(t, sp);
    assert r == t[..|r|];
    forall k | i + |r| <= k < |s|
      ensures sp(s[k])
    {
      assert s[k] == t[k - i];
    }
  }

  /** Stripping adds no character: everything in the result is in `s`. */
  lemma {:induction false} StripKeepsChars(s: string, sp: char -> bool, c: char)
    ensures c in StripBy(s, sp) ==> c in s
  {
    var t := TrimStart(s, sp);
    var r := TrimEnd(t, sp);
    assert r == StripBy(s, sp);
    if c in r {
      var k :| 0 <= k < |r| && r[k] == c;
      assert t[k] == c;
      assert s[|s| - |t| + k] == c;
    }
  }

  /** Stripping twice is stripping once. */
  lemma {:induction false} StripIdempotent(s: string, sp: char -> bool)
    ensures StripBy(StripBy(s, sp), sp) == StripBy(s, sp)
  {
    StripNoEdgeSpaces(StripBy(s, sp), sp);
  }
}

=== FILE: wrappers.dfy ===
/** Failure-compatible wrappers used throughout the model: `Option` for values a
    lookup may not find, `Result` for operations that either succeed or raise. */
module Wrappers {

  datatype Option<+T> = None | Some(value: T) {
    predicate IsFailure() {
      None?
    }

    function PropagateFailure<U>(): Option<U>
      requires None?
    {
      None
    }

    function Extract(): T
      requires Some?
    {
      value
    }

    function GetOr(default: T): T {
      match this
      case Some(v) => v
      case None => default
    }
  }

  datatype Result<+R, +E> = Success(value: R) | Failure(error: E) {
    predicate IsFailure() {
      Failure?
    }

    function PropagateFailure<U>(): Result<U, E>
      requires Failure?
    {
      Failure(error)
    }

    function Extract(): R
      requires Success?
    {
      value
    }
  }
}
